=== FILE: README.md ===
# UIPrefabPartial, modelled in Dafny

UIPrefabPartial is a Unity component that attaches prefab "partials" under child
nodes of a UI hierarchy. It holds an ordered list of bindings `m_Prefabs`. Each
binding names a prefab asset path, a parent object and a frame offset. It works
in two modes:

- **At runtime**, `Awake` sorts the bindings by frame and starts
  `LoadPrefabCoroutine`. Once per rendered frame, the coroutine attaches every
  binding whose frame has come, in list order, and stops at the first one that
  is not yet due. It reports each successful attachment to
  `FrameLoadCallBack`.
- **In the editor**, the component keeps a preview of every binding. Previews
  are cached in `m_InstanceMap`, a map from parent to preview instance. They are
  destroyed only through `EditorApplication.delayCall`. The custom inspector
  validates each row as it is drawn: a parent must lie inside the component's
  own hierarchy, and no two rows may share a parent. It also keeps the
  previews in step with edits, removals and additions.

The model has one module per concern:

| file | module | what it holds |
|---|---|---|
| `wrappers.dfy` | `Wrappers` | `Option` |
| `partial.dfy` | `Partial` | scene objects, the binding record, `LoadPartial`, the frame sort and its tie-independence |
| `frame_loader.dfy` | `FrameLoader` | class `Loader`: `Awake` plus the coroutine, one `Step` per `yield` |
| `preview_cache.dfy` | `PreviewCache` | class `Preview`: the edit-mode preview cache, the `delayCall` queue and the editor lifecycle hooks |
| `item_drawer.dfy` | `ItemDrawer` | the property drawer's update of one row |
| `inspector.dfy` | `Inspector` | `CheckParent`, the parent-validation rule, class `PartialInspector` with the list callbacks |

How the Unity environment is represented:

- **Objects.** Scene objects are values `Node(id, name)`. An instance made
  from a prefab is `Instance(id, prefab, parent, name, siblingIndex)`.
- **Asset database.** It is the set `assets` of the paths that load. A loaded
  prefab always instantiates. New objects get consecutive identities from a
  counter `nextId`.
- **Destroyed objects.** Unity's "fake null" is a destroyed object that compares
  equal to null. For the instances the preview cache creates, it is the set
  `alive` of identities not yet destroyed. For other scene objects, such as a
  binding's parent, it is the set `gone` of destroyed objects, passed to each
  operation like `assets`. `Partial.IsNull` is the source's `obj == null`.
  The two sets are not linked: destroying a parent destroys its children, so
  an environment that puts a parent in `gone` must also call
  `ObjectDestroyed` on the preview cached under it.
- **Deferred destruction.** `EditorApplication.delayCall` is the queue
  `pending`. `RunDelayCalls` is the editor running it.
- **Outside destruction.** Deleting an object from outside the component is
  `ObjectDestroyed`.
- **Transforms.** The scene's transform hierarchy is a parent map with a depth
  witness. The depth witness encodes Unity's guarantee that parent chains
  are finite.
- **Prefab status.** `CheckIsPrefab`, `CheckIsPrefabInstance`,
  `GetCorrespondingObjectFromSource` and `Application.isPlaying` become
  constants of the component.

The invariant I1 says that no two bindings share a non-null parent
(`UniqueParents`). Every inspector operation preserves it. The preview
cache's invariant is `CacheInv`: each preview was placed under its own
parent, first and with the preview name, and no object is cached twice or
both cached and queued.

Four points of the code's behaviour shape the model:

- **Sort stability.** `List.Sort` is unstable, so `Awake` promises only a
  sorted permutation of the bindings. `SortedPermutationsAgreeOnFrames`
  shows that every sorted order holds the same frame at each position, so
  the schedule of frames does not depend on how ties fall.
- **No snapshot.** The coroutine captures only `count` and reads
  `m_Prefabs` afresh on every pass.
- **Release of destroyed previews.** `DestroyPreview` removes the entry only
  when the cached preview is still alive (`if (go)`). An entry whose preview
  was destroyed from outside stays in the map until it is overwritten or
  cleared. After a failed load, the parent therefore has no *live* preview,
  but it may still hold such a dead entry.
- **Duplicate parents.** A row that keeps its own parent is cleared only when
  an earlier row (the first match of `FindIndex`) holds it too. A row that
  picks a parent another row holds, earlier or later, is reverted to its old
  value.

## Model

| member | source | states |
|---|---|---|
| Partial.LoadPartial | Assets/Scripts/UIPrefabPartial.cs:91-115 | a null or destroyed parent, or an empty path, gives null without loading; otherwise null exactly when the asset does not load; a new instance is child 0 of the parent and takes the parent's name |
| Partial.SortByFrame | Assets/Scripts/UIPrefabPartial.cs:46-54 | the sorted list is non-decreasing in frame and a permutation (same multiset) of the original |
| Partial.SortedPermutationsAgreeOnFrames | Assets/Scripts/UIPrefabPartial.cs:46-54 | any two frame-sorted permutations of the same bindings have equal frames at every position, so the unstable sort's tie order changes no frame |
| FrameLoader.DueEnd | Assets/Scripts/UIPrefabPartial.cs:124-143 | a pass from `i` stops at the first entry not yet due: every entry before it is due, the one at it is not, or the list is exhausted |
| FrameLoader.DueEndAllDue | Assets/Scripts/UIPrefabPartial.cs:122-148 | on a sorted list, once the frame reaches the last entry's offset a pass reaches the end of the list |
| FrameLoader.DueEndFrom | Assets/Scripts/UIPrefabPartial.cs:124-143 | a pass in which every entry from `start` to `index` was due and `index` is not stops exactly at `index` |
| FrameLoader.Notifications | Assets/Scripts/UIPrefabPartial.cs:131-137 | at most one callback per attempted entry |
| FrameLoader.NotificationsSnoc | Assets/Scripts/UIPrefabPartial.cs:131-137 | one more attempt adds at most its own callback, at the end |
| FrameLoader.NotificationsInFrameOrder | Assets/Scripts/UIPrefabPartial.cs:131-137 | attempts made in frame order give callbacks in frame order, none later than the last attempt |
| FrameLoader.CallbacksInFrameOrder | Assets/Scripts/UIPrefabPartial.cs:119-148 | between passes, the listener has heard of its instances in non-decreasing frame order |
| FrameLoader.InPassAttempt | Assets/Scripts/UIPrefabPartial.cs:126-139 | attempting the next due entry records it once, at the current frame, notifying exactly when the load worked and a listener exists |
| FrameLoader.PassEnds | Assets/Scripts/UIPrefabPartial.cs:122-148 | a pass ends where `DueEnd` says; counting the frame restores the between-passes invariant; the loop continues exactly while the last entry is still in the future; one fewer pass remains |
| FrameLoader.Loader.Awake | Assets/Scripts/UIPrefabPartial.cs:46-59 | the list is sorted by frame and a permutation of the original; the coroutine starts at frame 0, index 0, with `count` taken from the list and nothing attempted |
| FrameLoader.Loader.AttemptDue | Assets/Scripts/UIPrefabPartial.cs:126-139 | one due entry is attempted: `index = i + 1`, the earlier attempts are untouched, the list and frame are unchanged |
| FrameLoader.Loader.AttemptDueEntries | Assets/Scripts/UIPrefabPartial.cs:124-144 | the `for` loop attempts consecutive due entries in list order and stops at the end or at the first entry whose frame is later than the current frame |
| FrameLoader.Loader.Step | Assets/Scripts/UIPrefabPartial.cs:119-148 | one pass: after the loop has ended nothing changes; otherwise frame goes up by exactly 1, index moves to `DueEnd`, earlier attempts are kept, each new attempt has the current frame, the `LoadPartial` outcome and a callback exactly on success with a listener; the remaining passes drop by one (termination); every entry before `index` was attempted exactly once, on the frame its offset names |
| FrameLoader.ThreeBindingsSchedule | Assets/Scripts/UIPrefabPartial.cs:117-149 | with frames 0, 2, 2 the passes attach the first entry on frame 0, nothing on frame 1 and the other two on frame 2, which ends the loop |
| PreviewCache.SyncAllResult | Assets/Scripts/UIPrefabPartial.cs:202-209 | after updating every binding, a parent that no binding names, or whose binding's parent is destroyed, keeps its old preview; under I1 each live bound parent shows its binding's prefab exactly when it loads |
| PreviewCache.ReleasedEffect | Assets/Scripts/UIPrefabPartial.cs:232-241 | releasing keeps the cache invariant, drops the parent from what is shown, destroys nothing on the spot and queues exactly the live preview of the parent; a null or destroyed parent changes nothing |
| PreviewCache.UpdatedEffect | Assets/Scripts/UIPrefabPartial.cs:211-230 | a null or destroyed parent or an empty path changes nothing; otherwise the live old preview is queued, a working load leaves exactly the new preview, fresh and alive, under the parent, and a failed load leaves no live preview there; the invariant holds |
| PreviewCache.UpdatedAllKeepsInv | Assets/Scripts/UIPrefabPartial.cs:202-209 | rebuilding every binding keeps the cache invariant, shows what `SyncAll` says, destroys nothing on the spot and only appends to the queue |
| PreviewCache.UpdatedAllNoLeak | Assets/Scripts/UIPrefabPartial.cs:202-214 | after rebuilding every binding, each live preview under a parent some binding targets is queued for destruction, and each other live preview stays cached where it was, so none is left alive and unreferenced |
| PreviewCache.ShownOverwrite | Assets/Scripts/UIPrefabPartial.cs:218-224 | caching a fresh preview under its parent shows it there and changes nothing else |
| PreviewCache.ShownRemove | Assets/Scripts/UIPrefabPartial.cs:239 | removing an entry hides that parent and nothing else |
| PreviewCache.ReleaseKeepsInv | Assets/Scripts/UIPrefabPartial.cs:238-239 | dropping an entry whose instance is queued keeps the cache invariant |
| PreviewCache.OverwriteKeepsInv | Assets/Scripts/UIPrefabPartial.cs:216-225 | caching a fresh instance under its own parent with the preview name keeps the cache invariant |
| PreviewCache.Preview.constructor | Assets/Scripts/UIPrefabPartial.cs:153 | the cache starts empty, with nothing queued and no subscription |
| PreviewCache.Preview.PrefabRoot | Assets/Scripts/UIPrefabPartial.cs:184-188 | null unless this object is a connected prefab instance, else its source prefab |
| PreviewCache.Preview.GetPreviewInstance | Assets/Scripts/UIPrefabPartial.cs:243-265 | null for a null or destroyed parent; otherwise the cached entry, destroyed or not, which belongs to that parent and carries the preview name |
| PreviewCache.Preview.DestroyInEditor | Assets/Scripts/UIPrefabPartial.cs:267-276 | the instance is appended to the deferred queue; nothing else changes |
| PreviewCache.Preview.DestroyPreview | Assets/Scripts/UIPrefabPartial.cs:232-241 | the cache becomes `Released`: for a live parent its live preview is queued and its entry removed, for a null or destroyed one nothing changes; the invariant holds; what is shown loses that parent |
| PreviewCache.Preview.UpdateOnePreviewInEditor | Assets/Scripts/UIPrefabPartial.cs:211-230 | the cache becomes `Updated`, whose meaning `UpdatedEffect` states; what is shown changes as `SyncOne` says; previews are only queued, never destroyed on the spot |
| PreviewCache.Preview.ClearPreview | Assets/Scripts/UIPrefabPartial.cs:278-287 | the map ends empty; the newly queued instances are exactly the cached previews still alive, each once; nothing is destroyed yet |
| PreviewCache.Preview.RunDelayCalls | Assets/Scripts/UIPrefabPartial.cs:269-275 | running the queue destroys exactly the queued objects not already gone and empties it; no live cached preview is destroyed |
| PreviewCache.Preview.ObjectDestroyed | Assets/Scripts/UIPrefabPartial.cs:236 | an object destroyed from outside becomes a fake null; the cache invariant still holds |
| PreviewCache.Preview.PreviewAllInEditor | Assets/Scripts/UIPrefabPartial.cs:202-209 | in play mode nothing changes; otherwise the cache becomes `UpdatedAll` of the bindings in list order, so every replaced live preview is queued (`UpdatedAllNoLeak`), and what is shown is `SyncAll`; under I1 each live bound parent shows its prefab exactly when it loads |
| PreviewCache.Preview.OnPrefabChanged | Assets/Scripts/UIPrefabPartial.cs:190-200 | only for a connected instance whose source prefab equals the changed object's: every live preview is queued and all previews are rebuilt from an empty cache; otherwise nothing changes |
| PreviewCache.Preview.AwakeInEditor | Assets/Scripts/UIPrefabPartial.cs:155-160 | on a prefab asset nothing happens; otherwise the cache becomes `UpdatedAll` of the bindings (outside play mode), what is shown is `SyncAll`, and the component subscribes to prefab changes |
| PreviewCache.Preview.OnDestroyInEditor | Assets/Scripts/UIPrefabPartial.cs:162-167 | on a prefab asset nothing happens; otherwise every live preview is queued, the map emptied and the subscription dropped |
| PreviewCache.Preview.Reset | Assets/Scripts/UIPrefabPartial.cs:324-327 | every live preview is queued and the map emptied |
| ItemDrawer.Displayed | Assets/Scripts/Editor/UIPrefabPartialItemDrawer.cs:41-46 | the field starts from the asset at the stored path when it is non-empty and loads, else null |
| ItemDrawer.OnGUI | Assets/Scripts/Editor/UIPrefabPartialItemDrawer.cs:41-66 | the stored frame is the typed one when non-negative and 0 when the typed one is negative; the parent is written through unchecked; an unchanged pick keeps the path, a new pick stores its path, a cleared one the empty string |
| ItemDrawer.PickShownNextDraw | Assets/Scripts/Editor/UIPrefabPartialItemDrawer.cs:47-58 | what the user picks is what the field shows on the next draw |
| ItemDrawer.UntouchedRowUnchanged | Assets/Scripts/Editor/UIPrefabPartialItemDrawer.cs:41-66 | redrawing a row nobody touches changes nothing, so drawing is idempotent |
| ItemDrawer.NegativeFrameRepaired | Assets/Scripts/Editor/UIPrefabPartialItemDrawer.cs:62-66 | an untouched row with a negative frame is repaired to frame 0 and nothing else |
| Inspector.CheckParent | Assets/Scripts/Editor/UIPrefabPartialInspector.cs:175-184 | true exactly when walking up the parent chain from the object reaches the component's own transform |
| Inspector.RootWithin | Assets/Scripts/Editor/UIPrefabPartialInspector.cs:179-183 | the component's own object counts as inside it |
| Inspector.WithinTransitive | Assets/Scripts/Editor/UIPrefabPartialInspector.cs:175-184 | anything below an object inside the component is inside it |
| Inspector.FindIndex | Assets/Scripts/Editor/UIPrefabPartialInspector.cs:113 | the first row bound to the parent, or -1 when there is none |
| Inspector.ResolveParent | Assets/Scripts/Editor/UIPrefabPartialInspector.cs:104-127 | a null or destroyed object is kept as it is; an outside object is reverted; a new value another row holds is reverted; the row's own value is cleared exactly when an earlier row holds it; an inside value no other row holds is accepted; a newly accepted live parent is inside and unbound |
| Inspector.EditKeepsUnique | Assets/Scripts/Editor/UIPrefabPartialInspector.cs:104-127 | writing the validated parent keeps I1, when the field hands back null, a live object or the destroyed object it already held |
| Inspector.RemoveKeepsUnique | Assets/Scripts/Editor/UIPrefabPartialInspector.cs:137-151 | removing a row keeps I1 |
| Inspector.AddKeepsUnique | Assets/Scripts/Editor/UIPrefabPartialInspector.cs:153-166 | appending the blank row keeps I1 |
| Inspector.EditedRow | Assets/Scripts/Editor/UIPrefabPartialInspector.cs:93-127 | the edited row has the frame and the path the drawer stored, the frame never negative |
| Inspector.EditRow | Assets/Scripts/Editor/UIPrefabPartialInspector.cs:93-127 | the drawer's edit with its parent, unless it tests null, checked by `CheckParent` and `ResolveParent`; writing it keeps I1 |
| Inspector.PartialInspector.OnEnable | Assets/Scripts/Editor/UIPrefabPartialInspector.cs:168-172 | on a prefab asset or in play mode the cache is untouched; otherwise it becomes `UpdatedAll` of the bindings, so the previews it replaces are queued, and what is shown is `SyncAll` |
| Inspector.PartialInspector.DrawElement | Assets/Scripts/Editor/UIPrefabPartialInspector.cs:85-135 | the selection follows a selected or focused row; the row becomes `EditedRow`; I1 is kept; when the parent (under Unity's equality, where two null-testing objects are equal) or the path changed outside a prefab asset, the old parent's preview is released and one is built for the new row, else the cache is untouched |
| Inspector.PartialInspector.RefreshPreview | Assets/Scripts/Editor/UIPrefabPartialInspector.cs:129-134 | outside a prefab asset, a parent changed under Unity's equality or a changed path releases the old parent's preview and builds the new one; otherwise the cache is untouched |
| Inspector.PartialInspector.OnRemove | Assets/Scripts/Editor/UIPrefabPartialInspector.cs:137-151 | an out-of-range selection is clamped to the last row; that row's preview is released before the row is removed; I1 is kept |
| Inspector.PartialInspector.OnAdd | Assets/Scripts/Editor/UIPrefabPartialInspector.cs:153-166 | the new last row has an empty path, no parent and frame 0; the cache is untouched; I1 is kept |

## Left out

- Asset loading and instantiation (`LoadAssetAtPath`, `InstantiatePrefab`) are the `assets` oracle. A loaded prefab always instantiates, and the error log is not modelled.
- RectTransform normalisation (pivot, anchors, offsets, position, rotation, scale) is float vector assignment with no decision in it.
- `hideFlags` and the preview tag are left out. The preview name is kept.
- Coroutine machinery is left out (`StartCoroutine`, `WaitForEndOfFrame`, Unity stopping a coroutine when its object is destroyed). Each `yield` is one `Loader.Step` call, and a destroyed loader simply receives no further `Step`.
- The runtime `OnDestroy` (clearing the list and the callback) is left out, since it only drops references.
- The runtime and editor halves of the component are two classes, `Loader` and `Preview`. They share only `m_Prefabs`, which the model copies into each class. Edits to it during a run are not modelled. Nor are previews built in play mode: the inspector's `drawElementCallback` does not check `isPlaying` (Assets/Scripts/Editor/UIPrefabPartialInspector.cs:129-134), and neither does `UpdateOnePreviewInEditor` (Assets/Scripts/UIPrefabPartial.cs:211-213). The runtime `Awake` and `OnDestroy` branch to the editor hooks when not playing. That branching is not modelled; the editor hooks are modelled directly.
- `Partial.SortByFrame`: `List.Sort` sorts in place. The model computes the sorted sequence as a value, and it promises no order among equal frames.
- `Loader.Step`: the model does not let the list change between passes. Only `count` is captured by the source, and edits to `m_Prefabs` during a run are not modelled.
- The listener `FrameLoadCallBack` is a flag fixed when the loader is created. Replacing the listener mid-run is not modelled.
- 32-bit wrap-around of `frame` and the identity counter is not modelled. Integers are unbounded.
- A null string in a serialized field is the empty string. `onAddCallback` writes null, which Unity stores as "".
- The inspector's hierarchy click filtering (`OnHierarchyGUI`), `OnDisable`, header and rect layout, and `SerializedObject` plumbing are UI glue with no logic to verify.
- `PartialInspector.OnRemove`: `DoRemoveButton` removes the list's own selected row. The model takes that row to be the clamped `m_SelectedIndex`, and it requires a non-empty list, since the list offers its remove button only then.
- `PartialInspector.DrawElement` applies one row edit at a time. `FindIndex` sees the list as it was before that edit.
- Commented-out code (the child scan in `GetPreviewInstance` and `ClearPreview`, and `RemoveComponent`) is not modelled.
- Partial.LoadPartial: every parent and every prefab root is taken to carry a `RectTransform`. Otherwise the `as RectTransform` casts yield null and the source throws at lines 100-101, after instantiating. The object then stays in the scene, uncached and without the preview flags. A runtime pass ends its coroutine, so no later binding is attempted. `PreviewAllInEditor` stops its loop, and `AwakeInEditor` does not subscribe to prefab changes. The model attaches such a binding like any other.
- The set `gone` of destroyed scene objects is fixed for the length of one operation. The object picker in the Parent field offers no destroyed object, so the field hands back only null, a live object or the destroyed object it already held (`Inspector.FieldValue`). I1 is promised under that condition.
- Renaming a scene object is not modelled. A `Node` carries its name, so a renamed object would be a different value, while Unity keeps its identity; the model takes names as fixed, and `LoadPartial` reads the parent's current name.
- Reordering a parent's children after a preview is placed is not tracked: `siblingIndex` records where the preview was put, not where it is now.

=== FILE: frame_loader.dfy ===
/**
 * The runtime side of UIPrefabPartial: `Awake` sorts the bindings by frame and
 * starts `LoadPrefabCoroutine`, which attaches every entry whose frame has
 * come, one pass per rendered frame. One call of `Loader.Step` is one pass of
 * the coroutine's `while` body, up to its `yield`.
 */
module FrameLoader {
  import opened Wrappers
  import opened Partial

  /** One call of `LoadPartial` made by the coroutine: which entry, on which frame, what it gave, and whether the listener heard of it. */
  datatype Attempt = Attempt(entry: nat, frame: int, result: Option<Instance>, notified: bool)

  /** One call of `FrameLoadCallBack(frame, go)`. */
  datatype Notification = Notification(frame: int, instance: Instance)

  /**
   * Where a pass that starts at `i` on frame `frame` stops: the first entry at
   * or after `i` that is not yet due, or the end of the list.
   */
  function DueEnd(s: seq<PrefabInfo>, i: nat, frame: int): (r: nat)
    requires i <= |s|
    ensures i <= r <= |s|
    ensures forall k :: i <= k < r ==> s[k].frame <= frame
    ensures r < |s| ==> s[r].frame > frame
    decreases |s| - i
  {
    if i == |s| || s[i].frame > frame then i else DueEnd(s, i + 1, frame)
  }

  /** On a frame-sorted list, a frame no earlier than the last entry's makes every remaining entry due. */
  lemma {:induction false} DueEndAllDue(s: seq<PrefabInfo>, i: nat, frame: int)
    requires i < |s| && SortedByFrame(s) && s[|s| - 1].frame <= frame
    ensures DueEnd(s, i, frame) == |s|
    decreases |s| - i
  {
    if i + 1 < |s| {
      DueEndAllDue(s, i + 1, frame);
    }
  }

  /** The calls of `FrameLoadCallBack` that a log of attempts stands for, in order. */
  function Notifications(log: seq<Attempt>): (r: seq<Notification>)
    ensures |r| <= |log|
  {
    if log == [] then []
    else
      var last := log[|log| - 1];
      Notifications(log[..|log| - 1])
        + (if last.notified && last.result.Some? then [Notification(last.frame, last.result.value)] else [])
  }

  /** Appending one attempt appends at most its own notification. */
  lemma NotificationsSnoc(log: seq<Attempt>, a: Attempt)
    ensures Notifications(log + [a])
            == Notifications(log) + (if a.notified && a.result.Some? then [Notification(a.frame, a.result.value)] else [])
  {
    assert (log + [a])[..|log|] == log;
  }

  /** Notifications whose frames never decrease. */
  predicate InFrameOrder(ns: seq<Notification>)
  {
    forall i, j :: 0 <= i < j < |ns| ==> ns[i].frame <= ns[j].frame
  }

  /** Notifications none of which is later than `frame`. */
  predicate NoneAfter(ns: seq<Notification>, frame: int)
  {
    forall i :: 0 <= i < |ns| ==> ns[i].frame <= frame
  }

  /** Attempts whose frames never decrease. */
  predicate AttemptsInFrameOrder(log: seq<Attempt>)
  {
    forall i, j :: 0 <= i < j < |log| ==> log[i].frame <= log[j].frame
  }

  /** Dropping the last attempt keeps frame order, and the last attempt of the rest is no later. */
  lemma InitInFrameOrder(log: seq<Attempt>)
    requires AttemptsInFrameOrder(log) && log != []
    ensures AttemptsInFrameOrder(log[..|log| - 1])
    ensures |log| > 1 ==> log[|log| - 2].frame <= log[|log| - 1].frame
  {
  }

  /** Attempts logged in frame order give notifications in frame order, none later than the last attempt. */
  lemma {:induction false} NotificationsInFrameOrder(log: seq<Attempt>)
    requires AttemptsInFrameOrder(log)
    ensures InFrameOrder(Notifications(log))
    ensures log != [] ==> NoneAfter(Notifications(log), log[|log| - 1].frame)
  {
    if log != [] {
      var init := log[..|log| - 1];
      var last := log[|log| - 1];
      assert log == init + [last];
      InitInFrameOrder(log);
      NotificationsSnoc(init, last);
      NotificationsInFrameOrder(init);
      var n := Notifications(init);
      AppendInFrameOrder(n, last.frame,
        if last.notified && last.result.Some? then [Notification(last.frame, last.result.value)] else []);
    }
  }

  /** Appending notifications at `frame` to ones no later than `frame` keeps frame order. */
  lemma AppendInFrameOrder(n: seq<Notification>, frame: int, extra: seq<Notification>)
    requires InFrameOrder(n) && NoneAfter(n, frame)
    requires forall i :: 0 <= i < |extra| ==> extra[i].frame == frame
    ensures InFrameOrder(n + extra) && NoneAfter(n + extra, frame)
  {
    var r := n + extra;
    forall i | 0 <= i < |r| ensures r[i].frame <= frame && (i >= |n| ==> r[i].frame == frame) {
      if i < |n| {
        assert r[i] == n[i];
      } else {
        assert r[i] == extra[i - |n|];
      }
    }
    forall i, j | 0 <= i < j < |r| ensures r[i].frame <= r[j].frame {
      if j < |n| {
        assert r[i] == n[i] && r[j] == n[j];
      }
    }
  }

  /** What one attempt logged about `info` must show: the result `LoadPartial` gives, under a fresh identity. */
  ghost predicate Outcome(info: PrefabInfo, gone: set<Node>, assets: set<string>, r: Option<Instance>)
  {
    match r
    case None => LoadPartial(info.path, info.parent, gone, assets, 0).None?
    case Some(g) => LoadPartial(info.path, info.parent, gone, assets, g.id) == r
  }

  /**
   * The coroutine's state part-way through the pass on `frame` that started
   * at entry `start`: every entry before `index` was attempted once, in list
   * order, on the frame its offset names; those from `start` on were due on
   * this frame; the listener heard of exactly the notified attempts.
   */
  ghost predicate InPass(prefabs: seq<PrefabInfo>, listening: bool, frame: int, index: nat,
                         attempts: seq<Attempt>, notifications: seq<Notification>, start: nat, gone: set<Node>, assets: set<string>)
  {
    && SortedByFrame(prefabs)
    && 0 <= frame
    && start <= index <= |prefabs|
    && |attempts| == index
    && (forall k :: 0 <= k < index ==> attempts[k].entry == k && attempts[k].frame == Max0(prefabs[k].frame))
    && (forall k :: 0 <= k < index ==> attempts[k].notified ==> attempts[k].result.Some?)
    && (start < |prefabs| && 0 < frame ==> frame <= prefabs[start].frame)
    && (forall k :: start <= k < index ==>
          prefabs[k].frame <= frame
          && attempts[k].frame == frame
          && Outcome(prefabs[k], gone, assets, attempts[k].result)
          && attempts[k].notified == (listening && attempts[k].result.Some?))
    && notifications == Notifications(attempts)
  }

  /** Attempting the next due entry keeps `InPass`. */
  lemma InPassAttempt(prefabs: seq<PrefabInfo>, listening: bool, frame: int, index: nat,
                      attempts: seq<Attempt>, notifications: seq<Notification>, start: nat, gone: set<Node>, assets: set<string>, a: Attempt)
    requires InPass(prefabs, listening, frame, index, attempts, notifications, start, gone, assets)
    requires index < |prefabs| && prefabs[index].frame <= frame
    requires a.entry == index && a.frame == frame && a.notified == (listening && a.result.Some?)
    requires Outcome(prefabs[index], gone, assets, a.result)
    ensures InPass(prefabs, listening, frame, index + 1, attempts + [a],
                   notifications + (if a.notified then [Notification(frame, a.result.value)] else []), start, gone, assets)
  {
    assert frame == Max0(prefabs[index].frame) by {
      assert frame > 0 ==> frame <= prefabs[start].frame <= prefabs[index].frame;
    }
    NotificationsSnoc(attempts, a);
    var after := attempts + [a];
    forall k | 0 <= k < index + 1
      ensures after[k] == if k < index then attempts[k] else a
    {
    }
  }

  /**
   * The coroutine's state between passes: the list is sorted; each entry
   * before `index` was attempted exactly once, in list order, on the frame
   * its offset names; the next entry is not due before the current frame;
   * the listener heard of exactly the notified attempts.
   */
  ghost predicate Between(prefabs: seq<PrefabInfo>, frame: int, index: nat, attempts: seq<Attempt>, notifications: seq<Notification>)
  {
    && SortedByFrame(prefabs)
    && 0 <= frame
    && index <= |prefabs|
    && |attempts| == index
    && (forall k :: 0 <= k < index ==> attempts[k].entry == k && attempts[k].frame == Max0(prefabs[k].frame))
    && (forall k :: 0 <= k < index ==> attempts[k].notified ==> attempts[k].result.Some?)
    && (index < |prefabs| && 0 < frame ==> frame <= prefabs[index].frame)
    && notifications == Notifications(attempts)
  }

  /**
   * Between passes, `FrameLoadCallBack` has been called in non-decreasing
   * frame order, never with a frame later than the last attempted entry's.
   */
  lemma CallbacksInFrameOrder(prefabs: seq<PrefabInfo>, frame: int, index: nat, attempts: seq<Attempt>,
                              notifications: seq<Notification>)
    requires Between(prefabs, frame, index, attempts, notifications)
    ensures InFrameOrder(notifications)
    ensures index > 0 ==> NoneAfter(notifications, Max0(prefabs[index - 1].frame))
  {
    forall i, j | 0 <= i < j < |attempts| ensures attempts[i].frame <= attempts[j].frame {
      assert prefabs[i].frame <= prefabs[j].frame;
    }
    NotificationsInFrameOrder(attempts);
  }

  /** How many more passes a coroutine at `frame` and `index` makes before it ends. */
  function RemainingPasses(prefabs: seq<PrefabInfo>, frame: int, index: nat): nat
  {
    if index >= |prefabs| then 0 else Max0(prefabs[|prefabs| - 1].frame - frame) + 1
  }

  /**
   * A pass that has attempted every due entry from `start` and stopped at
   * `index` ends where `DueEnd` says, and counting the frame restores
   * `Between`.
   */
  lemma PassEnds(prefabs: seq<PrefabInfo>, listening: bool, frame: int, index: nat,
                 attempts: seq<Attempt>, notifications: seq<Notification>, start: nat, gone: set<Node>, assets: set<string>)
    requires InPass(prefabs, listening, frame, index, attempts, notifications, start, gone, assets)
    requires start < |prefabs| && (index == |prefabs| || prefabs[index].frame > frame)
    ensures index == DueEnd(prefabs, start, frame)
    ensures Between(prefabs, frame + 1, index, attempts, notifications)
    ensures index < |prefabs| <==> frame < prefabs[|prefabs| - 1].frame
    ensures RemainingPasses(prefabs, frame + 1, index) == RemainingPasses(prefabs, frame, start) - 1
  {
    DueEndFrom(prefabs, start, index, frame);
    if index < |prefabs| {
      assert prefabs[index].frame <= prefabs[|prefabs| - 1].frame;
    } else {
      assert prefabs[|prefabs| - 1].frame <= frame;
    }
  }

  /** `DueEnd` from `start` is `index` when every entry in between is due and `index` is not. */
  lemma {:induction false} DueEndFrom(s: seq<PrefabInfo>, start: nat, index: nat, frame: int)
    requires start <= index <= |s|
    requires forall k :: start <= k < index ==> s[k].frame <= frame
    requires index == |s| || s[index].frame > frame
    ensures DueEnd(s, start, frame) == index
    decreases index - start
  {
    if start < index {
      DueEndFrom(s, start + 1, index, frame);
    }
  }

  class Loader {
    /** `m_Prefabs`, sorted by `Awake`. */
    var prefabs: seq<PrefabInfo>
    /** `FrameLoadCallBack != null`. */
    var listening: bool
    /** The coroutine's locals. `count` is read once, when the coroutine starts. */
    var frame: int
    var index: nat
    const count: nat
    /** Identity of the next object the asset database instantiates. */
    var nextId: nat
    /** Every call of `LoadPartial` so far, in order. */
    ghost var attempts: seq<Attempt>
    /** What the listener has received so far. */
    var notifications: seq<Notification>

    ghost predicate Valid()
      reads this
    {
      count == |prefabs| && Between(prefabs, frame, index, attempts, notifications)
    }

    /** The coroutine has left its `while` loop. */
    predicate Done()
      reads this
    {
      index == count
    }

    /** How many more passes the coroutine makes before it ends. */
    ghost function Remaining(): nat
      reads this
      requires Valid()
    {
      RemainingPasses(prefabs, frame, index)
    }

    /** `Awake` at runtime: sort `m_Prefabs` by frame, then start the coroutine at frame 0, index 0. */
    constructor Awake(list: seq<PrefabInfo>, listening: bool)
      ensures Valid()
      ensures SortedByFrame(prefabs) && multiset(prefabs) == multiset(list)
      ensures this.listening == listening
      ensures frame == 0 && index == 0 && count == |list| && attempts == [] && notifications == []
    {
      prefabs := SortByFrame(list);
      this.listening := listening;
      frame := 0;
      index := 0;
      count := |list|;
      nextId := 0;
      attempts := [];
      notifications := [];
    }

    /**
     * The state inside a pass that started at entry `start`: the entries from
     * `start` up to `index` were due on this frame and have been attempted.
     */
    ghost predicate Passing(start: nat, gone: set<Node>, assets: set<string>)
      reads this
    {
      count == |prefabs| && InPass(prefabs, listening, frame, index, attempts, notifications, start, gone, assets)
    }

    /** The body of the coroutine's `for` loop for an entry that is due: `index = i + 1`, load, notify on success. */
    method AttemptDue(ghost start: nat, gone: set<Node>, assets: set<string>)
      requires Passing(start, gone, assets) && index < count && prefabs[index].frame <= frame
      modifies this
      ensures Passing(start, gone, assets)
      ensures index == old(index) + 1 && attempts[..old(index)] == old(attempts)
      ensures prefabs == old(prefabs) && frame == old(frame) && listening == old(listening)
    {
      var i := index;
      var info := prefabs[i];
      var go := LoadPartial(info.path, info.parent, gone, assets, nextId);
      ghost var a := Attempt(i, frame, go, listening && go.Some?);
      var notes := notifications;
      if go.Some? && listening {
        notes := notes + [Notification(frame, go.value)];
      }
      InPassAttempt(prefabs, listening, frame, i, attempts, notifications, start, gone, assets, a);
      index := i + 1;
      if go.Some? {
        nextId := nextId + 1;
      }
      notifications := notes;
      attempts := attempts + [a];
    }

    /**
     * The coroutine's `for` loop: from `index` on, attempt each entry whose
     * frame has come, in list order, and stop at the first one that has not.
     */
    method AttemptDueEntries(ghost start: nat, gone: set<Node>, assets: set<string>)
      requires Passing(start, gone, assets) && index == start
      modifies this
      ensures Passing(start, gone, assets)
      ensures index == count || prefabs[index].frame > frame
      ensures prefabs == old(prefabs) && frame == old(frame) && listening == old(listening)
      ensures attempts[..start] == old(attempts)
    {
      var i := index;
      while i < count
        invariant Passing(start, gone, assets) && index == i
        invariant prefabs == old(prefabs) && frame == old(frame) && listening == old(listening)
        invariant attempts[..start] == old(attempts)
        decreases count - i
      {
        if frame >= prefabs[i].frame {
          ghost var before := attempts;
          AttemptDue(start, gone, assets);
          assert attempts[..start] == before[..start];
        } else {
          break;
        }
        i := i + 1;
      }
    }

    /**
     * One pass of `LoadPrefabCoroutine`: attempt, in list order, every entry
     * from `index` on whose frame has come, stop at the first one that has
     * not, then count the frame. Once the coroutine has ended, nothing
     * happens. `assets` is what the asset database can load during this pass,
     * `gone` the scene objects destroyed by then: a destroyed parent tests null.
     */
    method Step(gone: set<Node>, assets: set<string>)
      requires Valid()
      modifies this
      ensures Valid()
      ensures prefabs == old(prefabs) && listening == old(listening)
      ensures old(Done()) ==> frame == old(frame) && index == old(index) && nextId == old(nextId)
                              && attempts == old(attempts) && notifications == old(notifications)
      ensures !old(Done()) ==> frame == old(frame) + 1 && index == DueEnd(prefabs, old(index), old(frame))
      ensures !old(Done()) ==> Remaining() == old(Remaining()) - 1
      ensures attempts[..old(index)] == old(attempts)
      ensures forall k :: old(index) <= k < index ==>
                attempts[k].frame == old(frame)
                && Outcome(prefabs[k], gone, assets, attempts[k].result)
                && attempts[k].notified == (listening && attempts[k].result.Some?)
    {
      if index == count {
        return;
      }
      ghost var start := index;
      AttemptDueEntries(start, gone, assets);
      PassEnds(prefabs, listening, frame, index, attempts, notifications, start, gone, assets);
      frame := frame + 1;
    }
  }

  /**
   * Bindings with frames 0, 2, 2 (in whatever order the sort leaves equal
   * frames): the pass on frame 0 stops after the first entry, the pass on
   * frame 1 attempts nothing, the pass on frame 2 attempts the other two and
   * ends the run.
   */
  lemma ThreeBindingsSchedule(s: seq<PrefabInfo>)
    requires |s| == 3 && s[0].frame == 0 && s[1].frame == 2 && s[2].frame == 2
    ensures DueEnd(s, 0, 0) == 1 && DueEnd(s, 1, 1) == 1 && DueEnd(s, 1, 2) == 3
  {
  }
}

=== FILE: inspector.dfy ===
/**
 * The custom inspector of UIPrefabPartial: a reorderable list of bindings
 * whose rows are validated as they are drawn (the parent must lie inside the
 * component's own hierarchy and be bound by no other row), and whose edits,
 * removals and additions keep the edit-mode previews in step.
 */
module Inspector {
  import opened Wrappers
  import opened Partial
  import opened PreviewCache
  import ItemDrawer

  /**
   * The scene's transform hierarchy: `up[n]` is the parent of `n`, absent for
   * an object at the top of the scene. `depth` witnesses that the parent
   * chain has no cycle, as Unity guarantees.
   */
  datatype Hierarchy = Hierarchy(up: map<Node, Node>, depth: map<Node, nat>)

  /** Every object with a parent lies strictly deeper than that parent. */
  predicate WellFormed(h: Hierarchy)
  {
    forall n :: n in h.up ==> n in h.depth && h.up[n] in h.depth && h.depth[h.up[n]] < h.depth[n]
  }

  /** How far a walk up from `n` can still go. */
  function Height(h: Hierarchy, n: Option<Node>): nat
  {
    if n.None? then 0 else if n.value in h.depth then h.depth[n.value] + 2 else 1
  }

  /** `n` is `root` or lies below it. */
  ghost predicate Within(h: Hierarchy, root: Node, n: Node)
    requires WellFormed(h)
    decreases Height(h, Some(n))
  {
    n == root || (n in h.up && Within(h, root, h.up[n]))
  }

  /**
   * `CheckParent(obj)`: walk up from `obj` until the walk falls off the top
   * of the scene or reaches the component's own transform `root`.
   */
  method CheckParent(h: Hierarchy, root: Node, obj: Node) returns (b: bool)
    requires WellFormed(h)
    ensures b <==> Within(h, root, obj)
  {
    var trans := Some(obj);
    while trans.Some? && trans.value != root
      invariant Within(h, root, obj) <==> (trans.Some? && Within(h, root, trans.value))
      decreases Height(h, trans)
    {
      trans := if trans.value in h.up then Some(h.up[trans.value]) else None;
    }
    b := trans == Some(root);
  }

  /** The component itself counts as inside its own hierarchy. */
  lemma RootWithin(h: Hierarchy, root: Node)
    requires WellFormed(h)
    ensures Within(h, root, root)
  {
  }

  /** Anything below an object inside the component is inside it too. */
  lemma {:induction false} WithinTransitive(h: Hierarchy, root: Node, mid: Node, n: Node)
    requires WellFormed(h) && Within(h, root, mid) && Within(h, mid, n)
    ensures Within(h, root, n)
    decreases Height(h, Some(n))
  {
    if n != mid {
      WithinTransitive(h, root, mid, h.up[n]);
    }
  }

  /** `List.FindIndex` with `o.m_Parent == p`: the first row bound to `p`, or -1. */
  function FindIndex(s: seq<PrefabInfo>, p: Node): (r: int)
    ensures -1 <= r < |s|
    ensures r >= 0 ==> s[r].parent == Some(p)
    ensures forall j :: 0 <= j < |s| && (r < 0 || j < r) ==> s[j].parent != Some(p)
  {
    if s == [] then -1
    else if s[0].parent == Some(p) then 0
    else
      var r := FindIndex(s[1..], p);
      assert forall j :: 1 <= j < |s| ==> s[j] == s[1..][j - 1];
      if r < 0 then -1 else r + 1
  }

  /**
   * The parent row `index` ends up with after its Parent field returned
   * `drawn`, given the list `before` the edit, the destroyed objects `gone`
   * and whether `drawn` lies inside the component. A null or destroyed
   * object is not checked; an outside object is refused; an object another
   * row is bound to (the first such row, by `FindIndex`) is refused if it is
   * a new value and cleared if it is the row's existing value.
   */
  function ResolveParent(before: seq<PrefabInfo>, index: nat, drawn: Option<Node>, gone: set<Node>, contained: bool): (r: Option<Node>)
    requires index < |before|
    // never a parent that is neither the drawn nor the previous one
    ensures r == drawn || r == before[index].parent || r.None?
    // a null or destroyed object passes the `!= null` test and is kept as it is
    ensures IsNull(drawn, gone) ==> r == drawn
    // an object outside the component is refused
    ensures !IsNull(drawn, gone) && !contained ==> r == before[index].parent
    // an inside object that no other row holds is accepted
    ensures !IsNull(drawn, gone) && contained && (forall j :: 0 <= j < |before| && j != index ==> before[j].parent != drawn) ==> r == drawn
    // a new value that another row holds is refused
    ensures (!IsNull(drawn, gone) && contained && drawn != before[index].parent
             && exists j :: 0 <= j < |before| && j != index && before[j].parent == drawn) ==> r == before[index].parent
    // the row's own value is cleared exactly when an earlier row holds it too
    ensures !IsNull(drawn, gone) && contained && drawn == before[index].parent ==>
              (r.None? <==> exists j :: 0 <= j < index && before[j].parent == drawn)
    // a live parent the row did not have before is inside the component and bound by no row
    ensures !IsNull(r, gone) && r != before[index].parent ==>
              contained && forall j :: 0 <= j < |before| ==> before[j].parent != r
  {
    if IsNull(drawn, gone) then drawn
    else if !contained then before[index].parent
    else
      var pre := FindIndex(before, drawn.value);
      if pre >= 0 && pre != index then
        (if before[index].parent != drawn then before[index].parent else None)
      else drawn
  }

  /**
   * What the Parent field can hand back: null, a live object, or the object
   * it already held, which may have been destroyed since; the object picker
   * offers no destroyed object.
   */
  predicate FieldValue(drawn: Option<Node>, held: Option<Node>, gone: set<Node>)
  {
    drawn.Some? && drawn.value in gone ==> drawn == held
  }

  /** Writing a row whose parent comes from `ResolveParent` keeps invariant I1. */
  lemma EditKeepsUnique(before: seq<PrefabInfo>, index: nat, drawn: Option<Node>, gone: set<Node>, contained: bool, row: PrefabInfo)
    requires index < |before| && UniqueParents(before) && FieldValue(drawn, before[index].parent, gone)
    requires row.parent == ResolveParent(before, index, drawn, gone, contained)
    ensures UniqueParents(before[index := row])
  {
    var after := before[index := row];
    forall i, j | 0 <= i < |after| && 0 <= j < |after| && i != j && after[i].parent.Some?
      ensures after[i].parent != after[j].parent
    {
      if i != index && j != index {
        assert after[i] == before[i] && after[j] == before[j];
      } else if i == index {
        assert after[j] == before[j];
        if row.parent == before[index].parent {
          assert before[i].parent.Some?;
        }
      } else {
        assert after[i] == before[i];
        if row.parent == before[index].parent {
          assert before[j].parent == after[j].parent;
        }
      }
    }
  }

  /** Removing a row keeps invariant I1. */
  lemma RemoveKeepsUnique(s: seq<PrefabInfo>, k: nat)
    requires k < |s| && UniqueParents(s)
    ensures UniqueParents(s[..k] + s[k + 1..])
  {
    var t := s[..k] + s[k + 1..];
    forall i, j | 0 <= i < |t| && 0 <= j < |t| && i != j && t[i].parent.Some?
      ensures t[i].parent != t[j].parent
    {
      var i' := if i < k then i else i + 1;
      var j' := if j < k then j else j + 1;
      assert t[i] == s[i'] && t[j] == s[j'];
    }
  }

  /** The row `onAddCallback` leaves at the end of the list. */
  const Blank: PrefabInfo := PrefabInfo(None, "", 0)

  /** Appending a blank row keeps invariant I1. */
  lemma AddKeepsUnique(s: seq<PrefabInfo>)
    requires UniqueParents(s)
    ensures UniqueParents(s + [Blank])
  {
    var t := s + [Blank];
    forall i, j | 0 <= i < |t| && 0 <= j < |t| && i != j && t[i].parent.Some?
      ensures t[i].parent != t[j].parent
    {
      assert i < |s|;
      assert t[i] == s[i];
      if j < |s| {
        assert t[j] == s[j];
      }
    }
  }

  /** The row as `drawElementCallback` leaves it: the drawer's edit, with its parent validated. */
  ghost function EditedRow(before: seq<PrefabInfo>, index: nat, input: ItemDrawer.Input, h: Hierarchy, root: Node,
                           gone: set<Node>, assets: set<string>): (r: PrefabInfo)
    requires index < |before| && WellFormed(h)
    ensures r.frame >= 0
    ensures r.frame == ItemDrawer.OnGUI(before[index], assets, input).frame
    ensures r.path == ItemDrawer.OnGUI(before[index], assets, input).path
  {
    var drawn := ItemDrawer.OnGUI(before[index], assets, input);
    var contained := !IsNull(drawn.parent, gone) && Within(h, root, drawn.parent.value);
    drawn.(parent := ResolveParent(before, index, drawn.parent, gone, contained))
  }

  /**
   * `EditedRow` is the row `drawElementCallback` computes with the result of
   * `CheckParent`, and writing it keeps invariant I1 when the Parent field
   * handed back a value it can hand back.
   */
  lemma EditedRowIs(before: seq<PrefabInfo>, index: nat, input: ItemDrawer.Input, h: Hierarchy, root: Node,
                    gone: set<Node>, assets: set<string>, contained: bool)
    requires index < |before| && WellFormed(h)
    requires var d := ItemDrawer.OnGUI(before[index], assets, input);
             contained <==> !IsNull(d.parent, gone) && Within(h, root, d.parent.value)
    ensures var d := ItemDrawer.OnGUI(before[index], assets, input);
            EditedRow(before, index, input, h, root, gone, assets) == d.(parent := ResolveParent(before, index, d.parent, gone, contained))
    ensures UniqueParents(before) && FieldValue(input.parent, before[index].parent, gone) ==>
              UniqueParents(before[index := EditedRow(before, index, input, h, root, gone, assets)])
  {
    var d := ItemDrawer.OnGUI(before[index], assets, input);
    if UniqueParents(before) && FieldValue(input.parent, before[index].parent, gone) {
      EditKeepsUnique(before, index, d.parent, gone, contained, EditedRow(before, index, input, h, root, gone, assets));
    }
  }

  /**
   * The editing half of `drawElementCallback` for row `index` of `before`:
   * let the drawer edit the row, then check the parent it holds, unless it
   * tests null, against the hierarchy under `root` and against the other rows.
   */
  method EditRow(before: seq<PrefabInfo>, index: nat, input: ItemDrawer.Input, h: Hierarchy, root: Node,
                 gone: set<Node>, assets: set<string>) returns (now: PrefabInfo)
    requires index < |before| && WellFormed(h)
    ensures now == EditedRow(before, index, input, h, root, gone, assets)
    ensures UniqueParents(before) && FieldValue(input.parent, before[index].parent, gone) ==> UniqueParents(before[index := now])
  {
    var drawn := ItemDrawer.OnGUI(before[index], assets, input);
    var contained := false;
    if !IsNull(drawn.parent, gone) {
      contained := CheckParent(h, root, drawn.parent.value);
    }
    now := drawn.(parent := ResolveParent(before, index, drawn.parent, gone, contained));
    EditedRowIs(before, index, input, h, root, gone, assets, contained);
  }

  /**
   * `a != b` under Unity's overloaded equality, as the change test of
   * `drawElementCallback` reads it: two objects that both test null are equal.
   */
  predicate Differ(a: Option<Node>, b: Option<Node>, gone: set<Node>)
  {
    a != b && !(IsNull(a, gone) && IsNull(b, gone))
  }

  class PartialInspector {
    /** `m_PrefabTool`, the component being inspected. */
    const tool: Preview
    /** `m_IsPrefab`: the component lives on a prefab asset, where no previews are built. */
    const isPrefab: bool
    /** `m_SelectedIndex`. */
    var selectedIndex: int

    ghost predicate Valid()
      reads this, tool
    {
      tool.Valid() && isPrefab == tool.isPrefabAsset
    }

    /** `OnEnable`: outside a prefab asset, build every preview. */
    constructor OnEnable(tool: Preview, gone: set<Node>, assets: set<string>)
      requires tool.Valid()
      modifies tool
      ensures Valid() && this.tool == tool && selectedIndex == -1
      ensures tool.prefabs == old(tool.prefabs)
      ensures tool.isPrefabAsset || tool.playing ==> tool.State() == old(tool.State())
      ensures !tool.isPrefabAsset && !tool.playing ==> tool.State() == UpdatedAll(old(tool.State()), tool.prefabs, gone, assets)
      ensures !tool.isPrefabAsset && !tool.playing ==> tool.Shown() == SyncAll(old(tool.Shown()), tool.prefabs, gone, assets)
    {
      this.tool := tool;
      isPrefab := tool.isPrefabAsset;
      selectedIndex := -1;
      new;
      if !isPrefab {
        tool.PreviewAllInEditor(gone, assets);
      }
    }

    /**
     * `drawElementCallback` for row `index`: note the selection, let the
     * drawer edit the row, validate the new parent and, outside a prefab
     * asset, rebuild the row's preview when its parent or path changed. `h`
     * is the scene's hierarchy, `gone` the destroyed objects and `assets`
     * what the asset database loads.
     */
    method DrawElement(index: nat, selected: bool, focused: bool, input: ItemDrawer.Input, h: Hierarchy,
                       gone: set<Node>, assets: set<string>)
      requires Valid() && WellFormed(h) && index < |tool.prefabs|
      modifies this, tool
      ensures Valid()
      ensures selectedIndex == if selected || focused then index else old(selectedIndex)
      ensures tool.prefabs == old(tool.prefabs)[index := EditedRow(old(tool.prefabs), index, input, h, tool.node, gone, assets)]
      ensures UniqueParents(old(tool.prefabs)) && FieldValue(input.parent, old(tool.prefabs)[index].parent, gone) ==>
                UniqueParents(tool.prefabs)
      ensures var was := old(tool.prefabs)[index];
              var now := tool.prefabs[index];
              if !isPrefab && (Differ(was.parent, now.parent, gone) || was.path != now.path)
              then tool.State() == Updated(Released(old(tool.State()), was.parent, gone), now.path, now.parent, gone, assets)
                   && tool.Shown() == SyncOne(Release(old(tool.Shown()), was.parent, gone), now.path, now.parent, gone, assets)
              else tool.State() == old(tool.State())
    {
      if selected || focused {
        selectedIndex := index;
      }
      var before := tool.prefabs;
      var was := before[index];
      var now := EditRow(before, index, input, h, tool.node, gone, assets);
      tool.prefabs := before[index := now];
      RefreshPreview(was, now, gone, assets);
    }

    /**
     * The preview half of `drawElementCallback`: outside a prefab asset, when
     * the row's parent or path changed from `was` to `now`, release the
     * preview under the old parent and build the one for the new row.
     */
    method RefreshPreview(was: PrefabInfo, now: PrefabInfo, gone: set<Node>, assets: set<string>)
      requires Valid()
      modifies tool
      ensures Valid() && tool.prefabs == old(tool.prefabs)
      ensures if !isPrefab && (Differ(was.parent, now.parent, gone) || was.path != now.path)
              then tool.State() == Updated(Released(old(tool.State()), was.parent, gone), now.path, now.parent, gone, assets)
                   && tool.Shown() == SyncOne(Release(old(tool.Shown()), was.parent, gone), now.path, now.parent, gone, assets)
              else tool.State() == old(tool.State())
    {
      if !isPrefab && (Differ(was.parent, now.parent, gone) || was.path != now.path) {
        tool.DestroyPreview(was.parent, gone);
        tool.UpdateOnePreviewInEditor(now.path, now.parent, gone, assets);
      }
    }

    /**
     * `onRemoveCallback`: clamp an out-of-range selection to the last row,
     * release that row's preview, then remove the row. The list's own remove
     * button is enabled only while the list has a row.
     */
    method OnRemove(gone: set<Node>)
      requires Valid() && |tool.prefabs| > 0
      modifies this, tool
      ensures Valid()
      ensures selectedIndex == if 0 <= old(selectedIndex) < |old(tool.prefabs)| then old(selectedIndex) else |old(tool.prefabs)| - 1
      ensures 0 <= selectedIndex < |old(tool.prefabs)|
      ensures tool.prefabs == old(tool.prefabs)[..selectedIndex] + old(tool.prefabs)[selectedIndex + 1..]
      ensures tool.State() == Released(old(tool.State()), old(tool.prefabs)[selectedIndex].parent, gone)
      ensures tool.Shown() == Release(old(tool.Shown()), old(tool.prefabs)[selectedIndex].parent, gone)
      ensures UniqueParents(old(tool.prefabs)) ==> UniqueParents(tool.prefabs)
    {
      if selectedIndex < 0 || selectedIndex >= |tool.prefabs| {
        selectedIndex := |tool.prefabs| - 1;
      }
      var k := selectedIndex;
      var before := tool.prefabs;
      tool.DestroyPreview(before[k].parent, gone);
      if UniqueParents(before) {
        RemoveKeepsUnique(before, k);
      }
      tool.prefabs := before[..k] + before[k + 1..];
    }

    /** `onAddCallback`: append a row with no path, no parent and frame 0. */
    method OnAdd()
      requires Valid()
      modifies tool
      ensures Valid()
      ensures tool.prefabs == old(tool.prefabs) + [Blank]
      ensures tool.State() == old(tool.State())
      ensures UniqueParents(old(tool.prefabs)) ==> UniqueParents(tool.prefabs)
    {
      if UniqueParents(tool.prefabs) {
        AddKeepsUnique(tool.prefabs);
      }
      tool.prefabs := tool.prefabs + [Blank];
    }
  }
}

=== FILE: item_drawer.dfy ===
/**
 * The property drawer of one binding row: a Prefab field, a Parent field and
 * a Frame field. Drawing a row reads the three fields back and writes them
 * into the record. An asset is identified by its path.
 */
module ItemDrawer {
  import opened Wrappers
  import opened Partial

  /**
   * The prefab the Prefab field starts from: the asset at the stored path when
   * the path is non-empty and loads, else null.
   */
  function Displayed(path: string, assets: set<string>): (r: Option<string>)
    ensures r.Some? <==> path != "" && path in assets
    ensures r.Some? ==> r.value == path
  {
    if path != "" && path in assets then Some(path) else None
  }

  /** What the three fields hold when the user is done with them: the picked prefab (by path), the parent and the typed frame. */
  datatype Input = Input(prefab: Option<string>, parent: Option<Node>, frame: int)

  /** A pick the Prefab field can return: a persistent asset, which has a path that loads. */
  predicate Pickable(prefab: Option<string>, assets: set<string>)
  {
    prefab.Some? ==> prefab.value != "" && prefab.value in assets
  }

  /**
   * `OnGUI` on the record `row`: the path changes only when the pick differs
   * from what the field started from; the parent is written straight through,
   * unchecked; the frame is stored as typed, a negative one as 0.
   */
  function OnGUI(row: PrefabInfo, assets: set<string>, input: Input): (r: PrefabInfo)
    // the stored frame is never negative: a non-negative frame is kept as typed, a negative one stored as 0
    ensures r.frame >= 0
    ensures input.frame >= 0 ==> r.frame == input.frame
    ensures input.frame < 0 ==> r.frame == 0
    // the parent is not validated here
    ensures r.parent == input.parent
    // an unchanged selection leaves the path as it was, even a path that no longer loads
    ensures input.prefab == Displayed(row.path, assets) ==> r.path == row.path
    // a new selection stores its path, a cleared one the empty string
    ensures input.prefab != Displayed(row.path, assets) ==> r.path == (if input.prefab.Some? then input.prefab.value else "")
  {
    var path := if input.prefab != Displayed(row.path, assets)
                then (if input.prefab.Some? then input.prefab.value else "")
                else row.path;
    var frame := if input.frame < 0 then 0 else input.frame;
    PrefabInfo(input.parent, path, frame)
  }

  /**
   * What the user picks is what the Prefab field shows on the next draw, and a
   * cleared field stays cleared.
   */
  lemma PickShownNextDraw(row: PrefabInfo, assets: set<string>, input: Input)
    requires Pickable(input.prefab, assets)
    ensures Displayed(OnGUI(row, assets, input).path, assets) == input.prefab
  {
    var r := OnGUI(row, assets, input);
    if input.prefab == Displayed(row.path, assets) {
      assert r.path == row.path;
    } else if input.prefab.None? {
      assert r.path == "";
    }
  }

  /**
   * Drawing a row whose frame is valid, with nobody touching its fields,
   * leaves it unchanged; so drawing an already drawn row again changes
   * nothing.
   */
  lemma UntouchedRowUnchanged(row: PrefabInfo, assets: set<string>)
    requires row.frame >= 0
    ensures OnGUI(row, assets, Input(Displayed(row.path, assets), row.parent, row.frame)) == row
  {
    var r := OnGUI(row, assets, Input(Displayed(row.path, assets), row.parent, row.frame));
    assert r.path == row.path && r.parent == row.parent && r.frame == row.frame;
  }

  /** An untouched row with a negative frame, as an older version of the data could hold, is repaired to frame 0 and nothing else. */
  lemma NegativeFrameRepaired(row: PrefabInfo, assets: set<string>)
    requires row.frame < 0
    ensures OnGUI(row, assets, Input(Displayed(row.path, assets), row.parent, row.frame)) == row.(frame := 0)
  {
    var r := OnGUI(row, assets, Input(Displayed(row.path, assets), row.parent, row.frame));
    assert r.path == row.path && r.parent == row.parent && r.frame == 0;
  }
}

=== FILE: partial.dfy ===
/**
 * The data shared by the runtime loader, the editor preview and the inspector:
 * scene objects, the binding record `PrefabInfo`, the instance a load
 * produces, the attach routine `LoadPartial`, and the frame ordering that
 * `Awake` establishes with `List.Sort`.
 */
module Partial {
  import opened Wrappers

  /** A scene object (a GameObject with its Transform), by identity; `name` is what `go.name` reads. */
  datatype Node = Node(id: nat, name: string)

  /** One entry of `m_Prefabs`: the parent to attach under, the prefab asset path and the frame offset. */
  datatype PrefabInfo = PrefabInfo(parent: Option<Node>, path: string, frame: int)

  /**
   * An object instantiated from the prefab asset at `prefab`, placed under
   * `parent` at child position `siblingIndex` and called `name`, as they were
   * when it was placed; later reordering of the parent's children is not tracked.
   */
  datatype Instance = Instance(id: nat, prefab: string, parent: Node, name: string, siblingIndex: nat)

  /**
   * `obj == null` under Unity's overloaded equality: a null reference, or a
   * reference to an object that has been destroyed. `gone` is the set of
   * scene objects destroyed so far.
   */
  predicate IsNull(obj: Option<Node>, gone: set<Node>)
  {
    obj.None? || obj.value in gone
  }

  /**
   * `LoadPartial(path, parent)`. The asset database is an oracle: `assets` is
   * the set of paths it can load, and a loaded prefab always instantiates;
   * `id` is the identity the new object receives.
   */
  function LoadPartial(path: string, parent: Option<Node>, gone: set<Node>, assets: set<string>, id: nat): (r: Option<Instance>)
    // a null or destroyed parent, or an empty path, gives null whatever the asset database holds
    ensures IsNull(parent, gone) || path == "" ==> r.None?
    // otherwise the result is null exactly when the asset does not load
    ensures !IsNull(parent, gone) && path != "" ==> (r.Some? <==> path in assets)
    // a loaded instance is the first child of its parent and carries the parent's name
    ensures r.Some? ==> r.value.parent == parent.value && r.value.siblingIndex == 0
                        && r.value.name == parent.value.name && r.value.prefab == path && r.value.id == id
  {
    if IsNull(parent, gone) || path == "" then None
    else if path !in assets then None
    else Some(Instance(id, path, parent.value, parent.value.name, 0))
  }

  /** Non-decreasing in `frame`: what the comparer of `Awake` orders by. */
  predicate SortedByFrame(s: seq<PrefabInfo>)
  {
    forall i, j :: 0 <= i < j < |s| ==> s[i].frame <= s[j].frame
  }

  /** Invariant I1: no two entries share a non-null parent. */
  predicate UniqueParents(s: seq<PrefabInfo>)
  {
    forall i, j :: 0 <= i < |s| && 0 <= j < |s| && i != j && s[i].parent.Some? ==> s[i].parent != s[j].parent
  }

  /** Inserts `x` into a list, before the first entry with a larger or equal frame. */
  function InsertByFrame(x: PrefabInfo, s: seq<PrefabInfo>): (r: seq<PrefabInfo>)
    ensures |r| == |s| + 1
  {
    if s == [] then [x]
    else if x.frame <= s[0].frame then [x] + s
    else [s[0]] + InsertByFrame(x, s[1..])
  }

  /** Inserting adds `x` to the entries and removes none. */
  lemma {:induction false} InsertByFramePermutes(x: PrefabInfo, s: seq<PrefabInfo>)
    ensures multiset(InsertByFrame(x, s)) == multiset(s) + multiset{x}
  {
    if s != [] && x.frame > s[0].frame {
      InsertByFramePermutes(x, s[1..]);
      assert s == [s[0]] + s[1..];
    }
  }

  /** Inserting into a frame-sorted list keeps it sorted; the first entry is then `x` or the old first entry. */
  lemma {:induction false} InsertByFrameSorted(x: PrefabInfo, s: seq<PrefabInfo>)
    requires SortedByFrame(s)
    ensures SortedByFrame(InsertByFrame(x, s))
    ensures s != [] ==> InsertByFrame(x, s)[0] in {x, s[0]}
  {
    if s != [] && x.frame > s[0].frame {
      var rest := InsertByFrame(x, s[1..]);
      InsertByFrameSorted(x, s[1..]);
      assert s[1..] != [] ==> s[0].frame <= s[1..][0].frame;
      var r := [s[0]] + rest;
      forall a, b | 0 <= a < b < |r| ensures r[a].frame <= r[b].frame {
        if a > 0 {
          assert r[a] == rest[a - 1] && r[b] == rest[b - 1];
        } else {
          assert r[b] == rest[b - 1] && rest[0].frame <= rest[b - 1].frame;
        }
      }
    }
  }

  /**
   * The order `m_Prefabs.Sort` leaves the list in. `List.Sort` is an
   * unstable introsort; this model sorts by insertion and promises only what
   * `List.Sort` promises: a permutation, non-decreasing in `frame`.
   */
  function SortByFrame(s: seq<PrefabInfo>): (r: seq<PrefabInfo>)
    ensures SortedByFrame(r)
    ensures multiset(r) == multiset(s)
    ensures |r| == |s|
  {
    if s == [] then []
    else
      var rest := SortByFrame(s[1..]);
      InsertByFrameSorted(s[0], rest);
      InsertByFramePermutes(s[0], rest);
      assert s == [s[0]] + s[1..];
      InsertByFrame(s[0], rest)
  }

  /** Two frame-sorted orders of the same entries start with the same frame: the smallest. */
  lemma SortedPermutationsSameFirstFrame(p: seq<PrefabInfo>, q: seq<PrefabInfo>)
    requires SortedByFrame(p) && SortedByFrame(q) && multiset(p) == multiset(q) && p != []
    ensures q != [] && p[0].frame == q[0].frame
  {
    assert p[0] in multiset(q);
    var j :| 0 <= j < |q| && q[j] == p[0];
    assert q[0] in multiset(p);
    var i :| 0 <= i < |p| && p[i] == q[0];
  }

  /** Removing one entry from a frame-sorted list leaves it sorted and removes it from the multiset. */
  lemma RemoveFromSorted(q: seq<PrefabInfo>, j: nat)
    requires SortedByFrame(q) && j < |q|
    ensures SortedByFrame(q[..j] + q[j + 1..])
    ensures multiset(q[..j] + q[j + 1..]) == multiset(q) - multiset{q[j]}
  {
    var rest := q[..j] + q[j + 1..];
    assert q == q[..j] + [q[j]] + q[j + 1..];
    forall a, b | 0 <= a < b < |rest| ensures rest[a].frame <= rest[b].frame {
      var a' := if a < j then a else a + 1;
      var b' := if b < j then b else b + 1;
      assert rest[a] == q[a'] && rest[b] == q[b'];
    }
  }

  /**
   * Taking out an entry whose frame equals the first one shifts every later
   * frame down by one position and changes no frame before it.
   */
  lemma RemoveMinimalShiftsFrames(q: seq<PrefabInfo>, j: nat, rest: seq<PrefabInfo>)
    requires SortedByFrame(q) && j < |q| && q[j].frame == q[0].frame && rest == q[..j] + q[j + 1..]
    ensures forall k :: 0 <= k < |rest| ==> rest[k].frame == q[k + 1].frame
  {
    forall k | 0 <= k < |rest| ensures rest[k].frame == q[k + 1].frame {
      if k < j {
        assert rest[k] == q[k];
        assert q[0].frame <= q[k].frame <= q[k + 1].frame <= q[j].frame;
      } else {
        assert rest[k] == q[k + 1];
      }
    }
  }

  /**
   * Taking the first entry of `p` out of `q` leaves a sorted list holding the
   * rest of `p`, whose frames are those of `q` after its first position.
   */
  lemma PeelFirst(p: seq<PrefabInfo>, q: seq<PrefabInfo>) returns (rest: seq<PrefabInfo>)
    requires SortedByFrame(p) && SortedByFrame(q) && multiset(p) == multiset(q) && p != []
    ensures p[0].frame == q[0].frame
    ensures SortedByFrame(rest) && multiset(p[1..]) == multiset(rest) && |rest| == |q| - 1
    ensures forall k :: 0 <= k < |rest| ==> rest[k].frame == q[k + 1].frame
  {
    SortedPermutationsSameFirstFrame(p, q);
    assert p[0] in multiset(q);
    var j :| 0 <= j < |q| && q[j] == p[0];
    rest := q[..j] + q[j + 1..];
    RemoveFromSorted(q, j);
    assert p == [p[0]] + p[1..];
    RemoveMinimalShiftsFrames(q, j, rest);
  }

  /**
   * Two frame-sorted orders of the same entries have the same frame at every
   * position: however `List.Sort` orders entries with equal frames, each
   * position of the sorted list holds the same frame offset.
   */
  lemma {:induction false} SortedPermutationsAgreeOnFrames(p: seq<PrefabInfo>, q: seq<PrefabInfo>)
    requires SortedByFrame(p) && SortedByFrame(q) && multiset(p) == multiset(q)
    ensures |p| == |q|
    ensures forall k :: 0 <= k < |p| ==> p[k].frame == q[k].frame
    decreases |p|
  {
    if p == [] {
      assert |q| == |multiset(q)| == 0;
    } else {
      var rest := PeelFirst(p, q);
      SortedPermutationsAgreeOnFrames(p[1..], rest);
      forall k | 1 <= k < |p| ensures p[k].frame == q[k].frame {
        assert p[k] == p[1..][k - 1];
      }
    }
  }

  /** The frame at which a due entry is attempted: the loader starts counting at 0. */
  function Max0(x: int): nat
  {
    if x < 0 then 0 else x
  }
}

=== FILE: preview_cache.dfy ===
/**
 * The edit-mode side of UIPrefabPartial: a cache `m_InstanceMap` from parent
 * to the preview instance built under it, kept in step with the bindings.
 * Previews are never destroyed on the spot: `DestroyInEditor` queues them on
 * `EditorApplication.delayCall`, modelled here as the `pending` queue, and
 * the editor later runs the queue (`RunDelayCalls`).
 */
module PreviewCache {
  import opened Wrappers
  import opened Partial

  /** The name every preview instance is given, so the hierarchy window can recognise it. */
  const PreviewName: string := ">>PrefabPreview<<"

  /** Looks `p` up in a map. */
  function Get<V>(m: map<Node, V>, p: Node): Option<V>
  {
    if p in m then Some(m[p]) else None
  }

  /** The parents, not destroyed, that some binding with a non-empty path names. */
  function Targets(s: seq<PrefabInfo>, gone: set<Node>): set<Node>
  {
    set i | 0 <= i < |s| && !IsNull(s[i].parent, gone) && s[i].path != "" :: s[i].parent.value
  }

  /**
   * What `UpdateOnePreviewInEditor(path, parent)` does to the cache, seen as a
   * map from parent to the prefab previewed there.
   */
  function SyncOne(view: map<Node, string>, path: string, parent: Option<Node>, gone: set<Node>, assets: set<string>): map<Node, string>
  {
    if IsNull(parent, gone) || path == "" then view
    else if path in assets then view[parent.value := path]
    else view - {parent.value}
  }

  /** What `DestroyPreview(parent)` does to that view. */
  function Release(view: map<Node, string>, parent: Option<Node>, gone: set<Node>): map<Node, string>
  {
    if !IsNull(parent, gone) then view - {parent.value} else view
  }

  /** What `PreviewAllInEditor` does to that view: `SyncOne` for every binding, in list order. */
  function SyncAll(view: map<Node, string>, s: seq<PrefabInfo>, gone: set<Node>, assets: set<string>): map<Node, string>
    decreases |s|
  {
    if s == [] then view
    else
      var last := s[|s| - 1];
      SyncOne(SyncAll(view, s[..|s| - 1], gone, assets), last.path, last.parent, gone, assets)
  }

  /** The parents a list targets are those of all but its last binding plus, if it counts, that of the last. */
  lemma TargetsSnoc(s: seq<PrefabInfo>, gone: set<Node>)
    requires s != []
    ensures var last := s[|s| - 1];
      Targets(s, gone) == Targets(s[..|s| - 1], gone) + (if !IsNull(last.parent, gone) && last.path != "" then {last.parent.value} else {})
  {
    var init := s[..|s| - 1];
    var last := s[|s| - 1];
    forall p | p in Targets(s, gone) ensures p in Targets(init, gone) || (last.parent == Some(p) && !IsNull(last.parent, gone) && last.path != "") {
      var i :| 0 <= i < |s| && !IsNull(s[i].parent, gone) && s[i].path != "" && s[i].parent.value == p;
      if i < |s| - 1 {
        assert init[i] == s[i];
      }
    }
    forall p | p in Targets(init, gone) ensures p in Targets(s, gone) {
      var i :| 0 <= i < |init| && !IsNull(init[i].parent, gone) && init[i].path != "" && init[i].parent.value == p;
      assert s[i] == init[i];
    }
  }

  /**
   * After a full sync: a parent that no binding names, or that has been
   * destroyed, keeps its old preview; and when no two bindings share a parent
   * (I1), the parent of every binding with a path shows that path exactly
   * when the asset loads, and nothing otherwise, unless it has been destroyed.
   */
  lemma {:induction false} SyncAllResult(view: map<Node, string>, s: seq<PrefabInfo>, gone: set<Node>, assets: set<string>)
    ensures forall p :: p !in Targets(s, gone) ==> Get(SyncAll(view, s, gone, assets), p) == Get(view, p)
    ensures UniqueParents(s) ==>
      forall i :: 0 <= i < |s| && !IsNull(s[i].parent, gone) && s[i].path != "" ==>
        Get(SyncAll(view, s, gone, assets), s[i].parent.value) == (if s[i].path in assets then Some(s[i].path) else None)
    decreases |s|
  {
    if s != [] {
      var init := s[..|s| - 1];
      var last := s[|s| - 1];
      SyncAllResult(view, init, gone, assets);
      TargetsSnoc(s, gone);
      if UniqueParents(s) {
        assert UniqueParents(init) by {
          forall i, j | 0 <= i < |init| && 0 <= j < |init| && i != j && init[i].parent.Some?
            ensures init[i].parent != init[j].parent
          {
            assert init[i] == s[i] && init[j] == s[j];
          }
        }
        forall i | 0 <= i < |s| && !IsNull(s[i].parent, gone) && s[i].path != ""
          ensures Get(SyncAll(view, s, gone, assets), s[i].parent.value) == (if s[i].path in assets then Some(s[i].path) else None)
        {
          if i < |s| - 1 {
            assert init[i] == s[i];
            assert last.parent != s[i].parent;
          }
        }
      }
    }
  }

  /**
   * The cache's invariant: each cached preview was made for its own parent,
   * was placed first under it and carries the preview name; identities come from a
   * counter, so no two cached previews are the same object and none of them
   * is waiting for destruction. A cached preview may have been destroyed by
   * something else (its parent deleted, say): the entry then stays until it
   * is overwritten or cleared.
   */
  ghost predicate CacheInv(instances: map<Node, Instance>, pending: seq<Instance>, nextId: nat)
  {
    && (forall p :: p in instances ==>
          instances[p].parent == p && instances[p].name == PreviewName && instances[p].siblingIndex == 0
          && instances[p].id < nextId)
    && (forall k :: 0 <= k < |pending| ==> pending[k].id < nextId)
    && (forall p, k :: p in instances && 0 <= k < |pending| ==> instances[p].id != pending[k].id)
    && (forall p, q :: p in instances && q in instances && p != q ==> instances[p].id != instances[q].id)
  }

  /** No instance appears twice. */
  predicate NoDuplicates(s: seq<Instance>)
  {
    forall i, j :: 0 <= i < j < |s| ==> s[i] != s[j]
  }

  /** The cached previews under the parents in `keys` that have not been destroyed. */
  function LiveValues(instances: map<Node, Instance>, alive: set<nat>, keys: set<Node>): set<Instance>
  {
    set p | p in keys && p in instances && instances[p].id in alive :: instances[p]
  }

  /** The parents with a cached preview that has not been destroyed, and the prefab each preview was made from. */
  function ShownOf(instances: map<Node, Instance>, alive: set<nat>): map<Node, string>
  {
    map p | p in instances && instances[p].id in alive :: instances[p].prefab
  }

  /** The state of the preview cache that an edit can change, as one value. */
  datatype Cache = Cache(instances: map<Node, Instance>, pending: seq<Instance>, alive: set<nat>, nextId: nat)

  /** A live preview is cached for `p`: `GetPreviewInstance(p)` is non-null and `if (go)` holds. */
  predicate LiveIn(c: Cache, p: Node)
  {
    p in c.instances && c.instances[p].id in c.alive
  }

  /** The cache after `DestroyPreview(parent)`; a null or destroyed parent changes nothing. */
  function Released(c: Cache, parent: Option<Node>, gone: set<Node>): Cache
  {
    if !IsNull(parent, gone) && LiveIn(c, parent.value)
    then c.(instances := c.instances - {parent.value}, pending := c.pending + [c.instances[parent.value]])
    else c
  }

  /** The cache after `UpdateOnePreviewInEditor(path, parent)`. */
  function Updated(c: Cache, path: string, parent: Option<Node>, gone: set<Node>, assets: set<string>): Cache
  {
    if IsNull(parent, gone) || path == "" then c
    else
      var r := Released(c, parent, gone);
      match LoadPartial(path, parent, gone, assets, r.nextId)
      case None => r
      case Some(go) =>
        r.(instances := r.instances[parent.value := go.(name := PreviewName)],
           alive := r.alive + {r.nextId}, nextId := r.nextId + 1)
  }

  /**
   * `DestroyPreview` keeps the invariant, removes `parent` from what is shown,
   * destroys nothing on the spot and queues exactly the live preview of
   * `parent`, if there is one. A null or destroyed parent changes nothing.
   */
  lemma ReleasedEffect(c: Cache, parent: Option<Node>, gone: set<Node>)
    requires CacheInv(c.instances, c.pending, c.nextId)
    ensures var r := Released(c, parent, gone);
      && CacheInv(r.instances, r.pending, r.nextId)
      && ShownOf(r.instances, r.alive) == Release(ShownOf(c.instances, c.alive), parent, gone)
      && r.alive == c.alive && r.nextId == c.nextId
      && (IsNull(parent, gone) ==> r == c)
      && (!IsNull(parent, gone) && LiveIn(c, parent.value) ==> r.pending == c.pending + [c.instances[parent.value]])
      && (IsNull(parent, gone) || !LiveIn(c, parent.value) ==> r.pending == c.pending)
      && (!IsNull(parent, gone) ==> !LiveIn(r, parent.value))
  {
    if !IsNull(parent, gone) {
      var p := parent.value;
      if LiveIn(c, p) {
        ReleaseKeepsInv(c.instances, c.pending, c.nextId, p);
        ShownRemove(c.instances, c.alive, p);
      } else {
        assert p !in ShownOf(c.instances, c.alive);
        assert ShownOf(c.instances, c.alive) - {p} == ShownOf(c.instances, c.alive);
      }
    }
  }

  /** The part of `ReleasedEffect` the cache's own methods rely on. */
  lemma ReleasedKeepsInv(c: Cache, parent: Option<Node>, gone: set<Node>)
    requires CacheInv(c.instances, c.pending, c.nextId)
    ensures var r := Released(c, parent, gone);
      && CacheInv(r.instances, r.pending, r.nextId)
      && ShownOf(r.instances, r.alive) == Release(ShownOf(c.instances, c.alive), parent, gone)
  {
    ReleasedEffect(c, parent, gone);
  }

  /** Dropping the entry of `p` drops `p` from what is shown and nothing else. */
  lemma ShownRemove(instances: map<Node, Instance>, alive: set<nat>, p: Node)
    ensures ShownOf(instances - {p}, alive) == ShownOf(instances, alive) - {p}
  {
  }

  /**
   * Caching `g` under its parent, with its identity newly alive, shows it
   * there and changes nothing else, provided no other cached preview shares
   * its identity.
   */
  lemma ShownOverwrite(instances: map<Node, Instance>, alive: set<nat>, g: Instance)
    requires forall q :: q in instances ==> instances[q].id != g.id
    ensures ShownOf(instances[g.parent := g], alive + {g.id}) == ShownOf(instances, alive)[g.parent := g.prefab]
  {
    var after := ShownOf(instances[g.parent := g], alive + {g.id});
    var want := ShownOf(instances, alive)[g.parent := g.prefab];
    forall q ensures q in after <==> q in want {
      if q != g.parent && q in instances {
        assert instances[g.parent := g][q] == instances[q];
      }
    }
  }

  /**
   * `UpdateOnePreviewInEditor` keeps the invariant and does to what is shown
   * what `SyncOne` says. A null or destroyed parent, or an empty path,
   * changes nothing. Otherwise: a live preview cached for the parent is
   * queued, not destroyed; a load that works leaves exactly the new preview,
   * fresh and alive, under the parent; a load that fails leaves no live
   * preview there.
   */
  lemma UpdatedEffect(c: Cache, path: string, parent: Option<Node>, gone: set<Node>, assets: set<string>)
    requires CacheInv(c.instances, c.pending, c.nextId)
    ensures var r := Updated(c, path, parent, gone, assets);
      && CacheInv(r.instances, r.pending, r.nextId)
      && ShownOf(r.instances, r.alive) == SyncOne(ShownOf(c.instances, c.alive), path, parent, gone, assets)
      && c.alive <= r.alive
      && (IsNull(parent, gone) || path == "" ==> r == c)
      && (!IsNull(parent, gone) && path != "" ==>
            r.pending == c.pending + (if LiveIn(c, parent.value) then [c.instances[parent.value]] else []))
      && (!IsNull(parent, gone) && path != "" && path in assets ==>
            r.instances == c.instances[parent.value := Instance(c.nextId, path, parent.value, PreviewName, 0)]
            && r.alive == c.alive + {c.nextId})
      && (!IsNull(parent, gone) && path != "" && path !in assets ==> !LiveIn(r, parent.value) && r.alive == c.alive)
  {
    if !IsNull(parent, gone) && path != "" {
      if path in assets {
        UpdatedLoaded(c, path, parent.value, gone, assets);
      } else {
        ReleasedEffect(c, parent, gone);
      }
    }
  }

  /** The part of `UpdatedEffect` the cache's own methods rely on. */
  lemma UpdatedKeepsInv(c: Cache, path: string, parent: Option<Node>, gone: set<Node>, assets: set<string>)
    requires CacheInv(c.instances, c.pending, c.nextId)
    ensures var r := Updated(c, path, parent, gone, assets);
      && CacheInv(r.instances, r.pending, r.nextId)
      && ShownOf(r.instances, r.alive) == SyncOne(ShownOf(c.instances, c.alive), path, parent, gone, assets)
      && c.pending <= r.pending && c.alive <= r.alive
  {
    UpdatedEffect(c, path, parent, gone, assets);
  }

  /** `Updated` is `Released` followed by caching the loaded preview, if the load works. */
  lemma UpdatedAfterRelease(c: Cache, path: string, p: Node, gone: set<Node>, assets: set<string>)
    requires path != "" && p !in gone
    ensures var m := Released(c, Some(p), gone);
      Updated(c, path, Some(p), gone, assets)
      == if path in assets
         then m.(instances := m.instances[p := Instance(m.nextId, path, p, PreviewName, 0)],
                 alive := m.alive + {m.nextId}, nextId := m.nextId + 1)
         else m
  {
  }

  /** `UpdatedEffect` when the load works. */
  lemma UpdatedLoaded(c: Cache, path: string, p: Node, gone: set<Node>, assets: set<string>)
    requires CacheInv(c.instances, c.pending, c.nextId) && path != "" && path in assets && p !in gone
    ensures var r := Updated(c, path, Some(p), gone, assets);
      && CacheInv(r.instances, r.pending, r.nextId)
      && ShownOf(r.instances, r.alive) == ShownOf(c.instances, c.alive)[p := path]
      && r.pending == c.pending + (if LiveIn(c, p) then [c.instances[p]] else [])
      && r.instances == c.instances[p := Instance(c.nextId, path, p, PreviewName, 0)]
      && r.alive == c.alive + {c.nextId}
  {
    ReleasedEffect(c, Some(p), gone);
    var m := Released(c, Some(p), gone);
    var g := Instance(m.nextId, path, p, PreviewName, 0);
    var r := m.(instances := m.instances[p := g], alive := m.alive + {g.id}, nextId := m.nextId + 1);
    assert Updated(c, path, Some(p), gone, assets) == r by {
      assert LoadPartial(path, Some(p), gone, assets, m.nextId) == Some(g.(name := p.name));
    }
    OverwriteKeepsInv(m.instances, m.pending, m.nextId, g);
    assert forall q :: q in m.instances ==> m.instances[q].id != g.id;
    ShownOverwrite(m.instances, m.alive, g);
    if LiveIn(c, p) {
      OverwriteRemoved(c.instances, p, g);
      OverwriteRemoved(ShownOf(c.instances, c.alive), p, path);
    } else {
      OverwriteRemoved(ShownOf(c.instances, c.alive), p, path);
      assert ShownOf(c.instances, c.alive) - {p} == ShownOf(c.instances, c.alive);
    }
  }

  /** Overwriting the entry of `p` gives the same map whether or not it was removed first. */
  lemma OverwriteRemoved<V>(m: map<Node, V>, p: Node, v: V)
    ensures (m - {p})[p := v] == m[p := v]
  {
  }

  /** `Updated` touches the entry of its own parent and no other. */
  lemma UpdatedElsewhere(c: Cache, path: string, parent: Option<Node>, gone: set<Node>, assets: set<string>, q: Node)
    requires IsNull(parent, gone) || path == "" || parent.value != q
    ensures Get(Updated(c, path, parent, gone, assets).instances, q) == Get(c.instances, q)
  {
  }

  /** The cache after `PreviewAllInEditor`: `Updated` for every binding, in list order. */
  function UpdatedAll(c: Cache, s: seq<PrefabInfo>, gone: set<Node>, assets: set<string>): Cache
    decreases |s|
  {
    if s == [] then c
    else
      var last := s[|s| - 1];
      Updated(UpdatedAll(c, s[..|s| - 1], gone, assets), last.path, last.parent, gone, assets)
  }

  /**
   * Rebuilding every preview keeps the invariant, shows what `SyncAll` says
   * and destroys nothing on the spot; it only appends to the queue.
   */
  lemma {:induction false} UpdatedAllKeepsInv(c: Cache, s: seq<PrefabInfo>, gone: set<Node>, assets: set<string>)
    requires CacheInv(c.instances, c.pending, c.nextId)
    ensures var r := UpdatedAll(c, s, gone, assets);
      && CacheInv(r.instances, r.pending, r.nextId)
      && ShownOf(r.instances, r.alive) == SyncAll(ShownOf(c.instances, c.alive), s, gone, assets)
      && c.alive <= r.alive && c.pending <= r.pending
    decreases |s|
  {
    if s != [] {
      var last := s[|s| - 1];
      var m := UpdatedAll(c, s[..|s| - 1], gone, assets);
      UpdatedAllKeepsInv(c, s[..|s| - 1], gone, assets);
      UpdatedKeepsInv(m, last.path, last.parent, gone, assets);
    }
  }

  /**
   * No preview leaks from a rebuild: every live preview under a parent some
   * binding targets is queued for destruction, and every other live preview
   * stays cached where it was.
   */
  lemma {:induction false} UpdatedAllNoLeak(c: Cache, s: seq<PrefabInfo>, gone: set<Node>, assets: set<string>)
    requires CacheInv(c.instances, c.pending, c.nextId)
    ensures var r := UpdatedAll(c, s, gone, assets);
      && c.pending <= r.pending
      && (forall p :: LiveIn(c, p) && p in Targets(s, gone) ==> c.instances[p] in r.pending[|c.pending|..])
      && (forall p :: LiveIn(c, p) && p !in Targets(s, gone) ==> Get(r.instances, p) == Get(c.instances, p))
    decreases |s|
  {
    UpdatedAllKeepsInv(c, s, gone, assets);
    if s != [] {
      var init := s[..|s| - 1];
      var last := s[|s| - 1];
      UpdatedAllNoLeak(c, init, gone, assets);
      UpdatedAllKeepsInv(c, init, gone, assets);
      var m := UpdatedAll(c, init, gone, assets);
      var r := Updated(m, last.path, last.parent, gone, assets);
      assert UpdatedAll(c, s, gone, assets) == r;
      UpdatedEffect(m, last.path, last.parent, gone, assets);
      assert m.pending <= r.pending;
      TargetsSnoc(s, gone);
      forall p | LiveIn(c, p)
        ensures p in Targets(s, gone) ==> c.instances[p] in r.pending[|c.pending|..]
        ensures p !in Targets(s, gone) ==> Get(r.instances, p) == Get(c.instances, p)
      {
        if p in Targets(init, gone) {
          var k :| |c.pending| <= k < |m.pending| && m.pending[k] == c.instances[p];
          assert r.pending[k] == c.instances[p];
        } else if !IsNull(last.parent, gone) && last.path != "" && last.parent.value == p {
          assert LiveIn(m, p);
          assert r.pending[|m.pending|] == c.instances[p];
        } else {
          UpdatedElsewhere(m, last.path, last.parent, gone, assets, p);
        }
      }
    }
  }

  class Preview {
    /** The component's own GameObject. */
    const node: Node
    /** `m_Prefabs`. */
    var prefabs: seq<PrefabInfo>
    /** `m_InstanceMap`: parent to preview instance. */
    var instances: map<Node, Instance>
    /** The destructions queued on `EditorApplication.delayCall`, in order. */
    var pending: seq<Instance>
    /** Identities of the objects not yet destroyed (a destroyed object compares equal to null). */
    var alive: set<nat>
    /** Identity of the next object the asset database instantiates. */
    var nextId: nat
    /** `CheckIsPrefab(this.gameObject)`: the component lives on a prefab asset. */
    const isPrefabAsset: bool
    /** `CheckIsPrefabInstance(this.gameObject)`: the component lives on a connected prefab instance. */
    const isPrefabInstance: bool
    /** `GetCorrespondingObjectFromSource(this.gameObject)`. */
    const prefabSource: Option<Node>
    /** `Application.isPlaying`. */
    const playing: bool
    /** Whether `OnPrefabChanged` is registered with `PrefabUtility.prefabInstanceUpdated`. */
    var subscribed: bool

    ghost predicate Valid()
      reads this
    {
      CacheInv(instances, pending, nextId)
    }

    /** A preview is cached for `p` and has not been destroyed: `if (go)` holds. */
    ghost predicate Live(p: Node)
      reads this
    {
      p in instances && instances[p].id in alive
    }

    /** What the scene shows: the parents with a live cached preview, and the prefab each was made from. */
    ghost function Shown(): map<Node, string>
      reads this
    {
      ShownOf(instances, alive)
    }

    /** `GetPrefabRoot(this.gameObject)`: the source prefab of a connected instance, else null. */
    function PrefabRoot(): (r: Option<Node>)
      reads this
      ensures !isPrefabInstance ==> r.None?
      ensures isPrefabInstance ==> r == prefabSource
    {
      if isPrefabInstance then prefabSource else None
    }

    constructor (node: Node, prefabs: seq<PrefabInfo>, isPrefabAsset: bool, isPrefabInstance: bool,
                 prefabSource: Option<Node>, playing: bool)
      ensures Valid()
      ensures this.node == node && this.prefabs == prefabs && this.isPrefabAsset == isPrefabAsset
      ensures this.isPrefabInstance == isPrefabInstance && this.prefabSource == prefabSource && this.playing == playing
      ensures instances == map[] && pending == [] && !subscribed
    {
      this.node := node;
      this.prefabs := prefabs;
      this.isPrefabAsset := isPrefabAsset;
      this.isPrefabInstance := isPrefabInstance;
      this.prefabSource := prefabSource;
      this.playing := playing;
      instances := map[];
      pending := [];
      alive := {};
      nextId := 0;
      subscribed := false;
    }

    /** `GetPreviewInstance(parent)`: the cached preview for `parent`, destroyed or not, or null; null for a null or destroyed parent. */
    method GetPreviewInstance(parent: Option<Node>, gone: set<Node>) returns (r: Option<Instance>)
      requires Valid()
      ensures IsNull(parent, gone) ==> r.None?
      ensures !IsNull(parent, gone) ==> r == Get(instances, parent.value)
      ensures r.Some? ==> r.value.parent == parent.value && r.value.name == PreviewName
    {
      if IsNull(parent, gone) {
        return None;
      }
      if parent.value in instances {
        return Some(instances[parent.value]);
      }
      return None;
    }

    /** `DestroyInEditor(instance)`: queue the destruction; nothing is destroyed yet. */
    method DestroyInEditor(g: Instance)
      modifies this`pending
      ensures pending == old(pending) + [g]
    {
      pending := pending + [g];
    }

    /** The cache fields as one value. */
    ghost function State(): Cache
      reads this
    {
      Cache(instances, pending, alive, nextId)
    }

    /**
     * `DestroyPreview(parent)`: if a live preview is cached for `parent`,
     * queue it for destruction and drop its entry. An entry whose preview is
     * already destroyed is left in the map; a null or destroyed parent
     * changes nothing.
     */
    method DestroyPreview(parent: Option<Node>, gone: set<Node>)
      requires Valid()
      modifies this
      ensures Valid()
      ensures State() == Released(old(State()), parent, gone)
      ensures prefabs == old(prefabs) && subscribed == old(subscribed)
      ensures Shown() == Release(old(Shown()), parent, gone)
    {
      ghost var c := State();
      if !IsNull(parent, gone) {
        var go := GetPreviewInstance(parent, gone);
        if go.Some? && go.value.id in alive {
          DestroyInEditor(go.value);
          instances := instances - {parent.value};
        }
      }
      assert State() == Released(c, parent, gone);
      assert Valid() && Shown() == Release(ShownOf(c.instances, c.alive), parent, gone) by {
        ReleasedKeepsInv(c, parent, gone);
      }
    }

    /**
     * `UpdateOnePreviewInEditor(path, parent)`: nothing for a null or
     * destroyed parent or an empty path; otherwise release the old preview,
     * load a new one and, if the load worked, cache it under `parent` with
     * the preview name.
     */
    method UpdateOnePreviewInEditor(path: string, parent: Option<Node>, gone: set<Node>, assets: set<string>)
      requires Valid()
      modifies this
      ensures Valid()
      ensures State() == Updated(old(State()), path, parent, gone, assets)
      ensures prefabs == old(prefabs) && subscribed == old(subscribed)
      ensures Shown() == SyncOne(old(Shown()), path, parent, gone, assets)
      // previews are only queued for destruction, never destroyed on the spot
      ensures old(pending) <= pending && old(alive) <= alive
    {
      ghost var c := State();
      if !IsNull(parent, gone) && path != "" {
        DestroyPreview(parent, gone);
        var go := LoadPartial(path, parent, gone, assets, nextId);
        if go.Some? {
          var g := go.value.(name := PreviewName);
          instances := instances[parent.value := g];
          alive := alive + {g.id};
          nextId := nextId + 1;
        }
        UpdatedAfterRelease(c, path, parent.value, gone, assets);
      }
      assert State() == Updated(c, path, parent, gone, assets);
      assert Valid() && Shown() == SyncOne(ShownOf(c.instances, c.alive), path, parent, gone, assets)
        && c.pending <= pending && c.alive <= alive by {
        UpdatedKeepsInv(c, path, parent, gone, assets);
      }
    }

    /**
     * `ClearPreview`: queue every cached preview that is still alive for
     * destruction, each once, then empty the map. Nothing is destroyed yet.
     * The map is walked in an order the dictionary does not specify.
     */
    method ClearPreview()
      requires Valid()
      modifies this
      ensures Valid()
      ensures instances == map[] && Shown() == map[]
      ensures prefabs == old(prefabs) && alive == old(alive) && nextId == old(nextId) && subscribed == old(subscribed)
      ensures |old(pending)| <= |pending| && pending[..|old(pending)|] == old(pending)
      ensures forall g :: g in pending[|old(pending)|..] <==> g in old(instances).Values && g.id in alive
      ensures NoDuplicates(pending[|old(pending)|..])
    {
      ghost var done: set<Node> := {};
      ghost var queued: seq<Instance> := [];
      var rest := instances.Keys;
      while rest != {}
        invariant rest == instances.Keys - done && done <= instances.Keys && instances == old(instances)
        invariant prefabs == old(prefabs) && alive == old(alive) && nextId == old(nextId) && subscribed == old(subscribed)
        invariant pending == old(pending) + queued
        invariant forall g :: g in queued <==> g in LiveValues(instances, alive, done)
        invariant NoDuplicates(queued)
        decreases rest
      {
        var p :| p in rest;
        var g := instances[p];
        if g.id in alive {
          QueueNewValue(instances, old(pending), nextId, alive, done, queued, p);
          DestroyInEditor(g);
          queued := queued + [g];
        }
        rest := rest - {p};
        done := done + {p};
      }
      assert pending[|old(pending)|..] == queued;
      forall g ensures g in queued <==> g in old(instances).Values && g.id in alive {
        if g in old(instances).Values && g.id in alive {
          var p :| p in instances && instances[p] == g;
          assert g in LiveValues(instances, alive, done);
        }
      }
      instances := map[];
      assert CacheInv(instances, pending, nextId) by {
        forall k | 0 <= k < |pending| ensures pending[k].id < nextId {
          if k >= |old(pending)| {
            assert pending[k] == queued[k - |old(pending)|];
          }
        }
      }
    }

    /**
     * The editor running the queued `delayCall` closures: each destroys its
     * instance unless it is already gone. Afterwards the queue is empty. No
     * live cached preview is destroyed, since none is queued.
     */
    method RunDelayCalls()
      requires Valid()
      modifies this
      ensures Valid()
      ensures pending == []
      ensures alive == old(alive) - set k | 0 <= k < |old(pending)| :: old(pending)[k].id
      ensures instances == old(instances) && prefabs == old(prefabs) && nextId == old(nextId) && subscribed == old(subscribed)
      ensures forall p :: p in instances ==> (Live(p) <==> old(Live(p)))
    {
      var i := 0;
      while i < |pending|
        invariant 0 <= i <= |pending| && pending == old(pending)
        invariant instances == old(instances) && prefabs == old(prefabs) && nextId == old(nextId) && subscribed == old(subscribed)
        invariant alive == old(alive) - set k | 0 <= k < i :: pending[k].id
      {
        var g := pending[i];
        if g.id in alive {
          alive := alive - {g.id};
        }
        i := i + 1;
      }
      pending := [];
    }

    /** Something outside this component destroys an object, as deleting a parent destroys its children. */
    method ObjectDestroyed(id: nat)
      requires Valid()
      modifies this`alive
      ensures Valid()
      ensures alive == old(alive) - {id}
    {
      alive := alive - {id};
    }

    /** `PreviewAllInEditor`: outside play mode, `UpdateOnePreviewInEditor` for every binding, in list order. */
    method PreviewAllInEditor(gone: set<Node>, assets: set<string>)
      requires Valid()
      modifies this
      ensures Valid()
      ensures prefabs == old(prefabs) && subscribed == old(subscribed)
      ensures playing ==> instances == old(instances) && pending == old(pending) && alive == old(alive) && nextId == old(nextId)
      ensures !playing ==> State() == UpdatedAll(old(State()), prefabs, gone, assets)
      ensures !playing ==> Shown() == SyncAll(old(Shown()), prefabs, gone, assets)
      ensures !playing && UniqueParents(prefabs) ==>
                forall i :: 0 <= i < |prefabs| && !IsNull(prefabs[i].parent, gone) && prefabs[i].path != "" ==>
                  Get(Shown(), prefabs[i].parent.value) == (if prefabs[i].path in assets then Some(prefabs[i].path) else None)
      // previews are only queued for destruction, never destroyed on the spot
      ensures old(pending) <= pending && old(alive) <= alive
    {
      if playing {
        return;
      }
      var i := 0;
      while i < |prefabs|
        invariant Valid() && prefabs == old(prefabs) && subscribed == old(subscribed) && 0 <= i <= |prefabs|
        invariant State() == UpdatedAll(old(State()), prefabs[..i], gone, assets)
        invariant Shown() == SyncAll(old(Shown()), prefabs[..i], gone, assets)
        invariant old(pending) <= pending && old(alive) <= alive
      {
        UpdateOnePreviewInEditor(prefabs[i].path, prefabs[i].parent, gone, assets);
        assert prefabs[..i + 1][..i] == prefabs[..i];
        i := i + 1;
      }
      assert prefabs[..i] == prefabs;
      SyncAllResult(old(Shown()), prefabs, gone, assets);
    }

    /**
     * `OnPrefabChanged(obj)`: when this object is a connected prefab
     * instance and `obj` comes from the same source prefab, rebuild every
     * preview from scratch; otherwise do nothing. `changedRoot` is
     * `GetPrefabRoot(obj)`.
     */
    method OnPrefabChanged(changedRoot: Option<Node>, gone: set<Node>, assets: set<string>)
      requires Valid()
      modifies this
      ensures Valid()
      ensures prefabs == old(prefabs) && subscribed == old(subscribed)
      ensures !(isPrefabInstance && PrefabRoot() == changedRoot) ==>
                instances == old(instances) && pending == old(pending) && alive == old(alive) && nextId == old(nextId)
      ensures isPrefabInstance && PrefabRoot() == changedRoot && playing ==> instances == map[]
      ensures isPrefabInstance && PrefabRoot() == changedRoot && !playing ==> Shown() == SyncAll(map[], prefabs, gone, assets)
      ensures |old(pending)| <= |pending| && pending[..|old(pending)|] == old(pending)
      ensures isPrefabInstance && PrefabRoot() == changedRoot ==>
                forall p :: old(Live(p)) ==> old(instances)[p] in pending[|old(pending)|..]
    {
      if isPrefabInstance && PrefabRoot() == changedRoot {
        ClearPreview();
        ghost var cleared := pending;
        PreviewAllInEditor(gone, assets);
        forall p | old(Live(p)) ensures old(instances)[p] in pending[|old(pending)|..] {
          var g := old(instances)[p];
          assert g in cleared[|old(pending)|..];
          var k :| |old(pending)| <= k < |cleared| && cleared[k] == g;
          assert pending[k] == g;
        }
      }
    }

    /** `AwakeInEditor`: on anything but a prefab asset, build every preview and subscribe to prefab changes. */
    method AwakeInEditor(gone: set<Node>, assets: set<string>)
      requires Valid()
      modifies this
      ensures Valid()
      ensures prefabs == old(prefabs)
      ensures isPrefabAsset ==> instances == old(instances) && pending == old(pending) && alive == old(alive)
                                && subscribed == old(subscribed)
      ensures !isPrefabAsset ==> subscribed
      ensures !isPrefabAsset && !playing ==> State() == UpdatedAll(old(State()), prefabs, gone, assets)
      ensures !isPrefabAsset && !playing ==> Shown() == SyncAll(old(Shown()), prefabs, gone, assets)
    {
      if isPrefabAsset {
        return;
      }
      PreviewAllInEditor(gone, assets);
      subscribed := true;
    }

    /** `OnDestroyInEditor`: on anything but a prefab asset, release every preview and unsubscribe. */
    method OnDestroyInEditor()
      requires Valid()
      modifies this
      ensures Valid()
      ensures prefabs == old(prefabs) && alive == old(alive)
      ensures isPrefabAsset ==> instances == old(instances) && pending == old(pending) && subscribed == old(subscribed)
      ensures !isPrefabAsset ==> instances == map[] && !subscribed
      ensures |old(pending)| <= |pending| && pending[..|old(pending)|] == old(pending)
      ensures !isPrefabAsset ==> forall g :: g in pending[|old(pending)|..] <==> g in old(instances).Values && g.id in alive
    {
      if isPrefabAsset {
        return;
      }
      ClearPreview();
      subscribed := false;
    }

    /** `Reset`: the editor's Reset command releases every preview. */
    method Reset()
      requires Valid()
      modifies this
      ensures Valid()
      ensures instances == map[] && prefabs == old(prefabs) && alive == old(alive) && subscribed == old(subscribed)
      ensures |old(pending)| <= |pending| && pending[..|old(pending)|] == old(pending)
      ensures forall g :: g in pending[|old(pending)|..] <==> g in old(instances).Values && g.id in alive
    {
      ClearPreview();
    }
  }

  /** Dropping one entry keeps the invariant once its instance is queued. */
  lemma ReleaseKeepsInv(instances: map<Node, Instance>, pending: seq<Instance>, nextId: nat, p: Node)
    requires CacheInv(instances, pending, nextId) && p in instances
    ensures CacheInv(instances - {p}, pending + [instances[p]], nextId)
  {
    var after := pending + [instances[p]];
    forall q, k | q in instances - {p} && 0 <= k < |after| ensures instances[q].id != after[k].id {
      if k < |pending| {
        assert after[k] == pending[k];
      }
    }
  }

  /** Caching a freshly made instance under its own parent, over whatever was there, keeps the invariant. */
  lemma OverwriteKeepsInv(instances: map<Node, Instance>, pending: seq<Instance>, nextId: nat, g: Instance)
    requires CacheInv(instances, pending, nextId)
    requires g.id == nextId && g.name == PreviewName && g.siblingIndex == 0
    ensures CacheInv(instances[g.parent := g], pending, nextId + 1)
  {
  }

  /**
   * In `ClearPreview`, the live preview under a parent not yet visited is not
   * among those already queued, and queuing it keeps the queue's ids below
   * the counter.
   */
  lemma QueueNewValue(instances: map<Node, Instance>, pending: seq<Instance>, nextId: nat, alive: set<nat>,
                      done: set<Node>, queued: seq<Instance>, p: Node)
    requires CacheInv(instances, pending, nextId) && p in instances && p !in done && instances[p].id in alive
    requires NoDuplicates(queued) && forall g :: g in queued <==> g in LiveValues(instances, alive, done)
    ensures NoDuplicates(queued + [instances[p]])
    ensures forall g :: g in queued + [instances[p]] <==> g in LiveValues(instances, alive, done + {p})
  {
    var after := queued + [instances[p]];
    forall i, j | 0 <= i < j < |after| ensures after[i] != after[j] {
      if j == |queued| {
        assert after[i] in queued;
      }
    }
  }
}

=== FILE: wrappers.dfy ===
/** Option, standing in for the nullable references of the component. */
module Wrappers {

  datatype Option<+T> = None | Some(value: T)
}
